=== FILE: README.md ===
# Request queues, image store and helpers of the CS 350 servers, in Dafny

This project models the sequential core of a series of course servers and
their helper programs, and proves properties of that model:

- **The bounded ring-buffer request queue** in its three versions:
  - the image server (`HW6/server_img.c`), which keeps `available` and
    `number_of_items`;
  - the limited-queue server (`HW3/server_lim.c`), whose `capacity` comes from
    `-q`;
  - the first queueing server (`HW2/server_q.c`), whose capacity is the
    constant `QUEUE_SIZE` (500).

  Each queue is an immutable datatype that holds the ring array as a
  fixed-length sequence next to the source's own index fields. Its contents
  are the window of `count` slots from the read index, oldest first
  (`Ring.Window`). Enqueue, dequeue and the `Q:[R<id>,...]` status dump are
  stated against that window. A schedule of pushes and pops (`Run`) is proved
  to serve requests in admission order.
- **The image server's handle table and worker dispatch.** The table is a
  `map<nat, Image>`. Images are an abstract type. Each kernel is a function
  that may fail. The model covers:
  - registration on the connection thread;
  - the handle minting of `get_new_image_id`;
  - the worker's RETRIEVE / transform / reject branches;
  - the overwrite policy;
  - the enqueue-or-reject step of the connection loop.
- **Small helpers:**
  - `timespec` compare, add and the elapsed-time borrow (`HW1/timelib.c`);
  - the argument validation of the clock program (`HW1/clock.c`), with
    `strtol` modelled as C specifies it;
  - the string reversal program (`HW0/reverse.c`).

Every socket write and log line is an element of an `outputs` sequence, in
the order the source performs them. Clock readings, decoded payloads and
kernels are parameters.

### Behaviour of the code worth noting

- The first image registered on a connection gets handle 0. Handle 0 is also
  what every rejection carries (`ImageStore.FirstHandleIsRejectionHandle`).
- RETRIEVE of a handle with no image sends no reply at all. The worker hits
  `continue` with the error flag set.
- A REGISTER refused because 1024 images are already registered is answered
  before its image payload is read. The payload is left in the stream, and
  the next request read is taken from those bytes. Here the payload is an
  `Option<Image>` parameter that this branch ignores.
- Registration log lines are stamped `T1`, although the only worker is
  worker 0.
- The limited-queue server's `X` line carries a clock reading taken after
  the refusal, not the receipt time. The image server's `X` line carries the
  receipt time.
- The limited-queue server without `-q` runs with capacity 0. Every request
  is then refused (`LimQueue.ZeroCapacityRefusesAll`).
- The image server's `get_from_queue` has no emptiness test. Only the
  shutdown wake-up reaches it on an empty queue, and then the counts leave
  their range (`ImgQueue.GetOnEmptyOverflowsCounts`).
- The first queueing server's `add_to_queue` posts the worker's semaphore
  even when it drops a request (`HW2/server_q.c:117`). After a drop, the
  worker can later take the `-1` sentinel from a drained queue. The worker
  is not part of this model.
- An empty seconds argument to the clock program reads as 0 and is accepted.
  `strtol` consumes nothing and the end pointer rests on the terminating NUL
  (`ClockArgs.EmptySecondsReadAsZero`). `errno` is not checked either, so
  out-of-range values saturate to `LONG_MAX`.

## Model

| member | source | states |
|---|---|---|
| Timelib.Cmp | HW1/timelib.c:124-134 | 0 exactly when both fields agree; 1 exactly when `a` has more seconds, or equal seconds and more nanoseconds; -1 exactly in the remaining case |
| Timelib.CmpAntisymmetric | HW1/timelib.c:121-134 | swapping the arguments negates the result |
| Timelib.CmpMatchesInstants | HW1/timelib.c:121-134 | on normalised values, the field-wise comparison is the sign of the difference of the instants denoted |
| Timelib.Add | HW1/timelib.c:108-119 | on normalised inputs the result's nanoseconds lie in `[0, NANO_IN_SEC]`, the upper bound included |
| Timelib.AddPreservesTotal | HW1/timelib.c:108-119 | the sum denotes the total of the two durations, in nanoseconds |
| Timelib.AddLeavesFullSecond | HW1/timelib.c:114 | half a second plus half a second gives `{0, NANO_IN_SEC}`: not normalised, and ranked before `{1, 0}`, the same instant |
| Timelib.FullSecondField | HW1/timelib.c:124-134 | `{0, NANO_IN_SEC}` denotes the same instant as `{1, 0}`, yet timespec_cmp ranks it earlier |
| Timelib.AddNormalised | HW1/timelib.c:110-117 | with the carry taken at `>=`, normalised inputs give a normalised sum |
| Timelib.AddNormalisedPreservesTotal | HW1/timelib.c:108-119 | the corrected sum still denotes the total of the two durations |
| Timelib.Elapsed | HW1/timelib.c:81-88 | the borrowed difference denotes current minus begin, and is normalised when both readings are |
| Timelib.BusyWaitStopsAfterWaitTime | HW1/timelib.c:75-94 | the busy-wait exit test holds exactly when at least the wait time has passed between the two readings |
| Ring.WindowPush | HW6/server_img.c:156-157 | writing at the slot just past the window and advancing the write index appends the item to the contents |
| Ring.WindowPop | HW6/server_img.c:181-182 | the slot at the read index is the oldest item, and advancing the index modulo the length drops exactly that item |
| Ring.DumpWindow | HW6/server_img.c:202-211 | the dump loop, stepping its index modulo the length, prints `Q:[` + the ids of the window in order, joined by commas, + `]` and a newline |
| Ring.StatusLineCommas | HW3/server_lim.c:117-125 | a status line with `n` entries contains exactly `n - 1` commas (none for an empty queue): no trailing comma |
| ImgQueue.Init | HW6/server_img.c:129-139 | a fresh queue is valid and empty, with `available == max_size` |
| ImgQueue.Add | HW6/server_img.c:141-168 | returns only 1 or 0: refuses with 1 exactly when `available == 0`, changing nothing; otherwise stores at `wr_pos`, moves one slot from free to resident, keeps `rd_pos` and returns 0; the sum `available + number_of_items` is preserved either way |
| ImgQueue.AddAppends | HW6/server_img.c:152-160 | on a valid queue, the add keeps it valid, refuses exactly when full and otherwise appends the request at the tail of the serving order |
| ImgQueue.Get | HW6/server_img.c:170-190 | keeps `wr_pos`, the array and the sum `available + number_of_items` |
| ImgQueue.GetTakesOldest | HW6/server_img.c:181-184 | on a non-empty queue, returns the oldest request and leaves the rest in order |
| ImgQueue.GetOnEmptyOverflowsCounts | HW6/server_img.c:181-184 | on an empty queue, `available` becomes `max_size + 1` and `number_of_items` becomes -1 |
| ImgQueue.DumpQueueStatus | HW6/server_img.c:192-215 | lists exactly `max_size - available` ids, the resident ones, in serving order |
| ImgQueue.Run | HW6/server_img.c:141-190 | any schedule of adds and gets keeps the queue valid and its size |
| ImgQueue.RunIsFifo | HW6/server_img.c:141-190 | served requests followed by those still queued equal the initial contents followed by every admitted request |
| ImgQueue.ServedInAdmissionOrder | HW6/server_img.c:141-190 | from a fresh queue, what the worker is handed is a prefix of what was admitted, in order |
| LimQueue.Init | HW3/server_lim.c:92-103 | `front = rear = count = 0`, `capacity = queue_size`, and the queue is empty |
| LimQueue.Add | HW3/server_lim.c:133-169 | -1 and no change exactly when `count == capacity`; otherwise 0, and the request becomes the last in serving order; the capacity never changes |
| LimQueue.Get | HW3/server_lim.c:171-194 | on an empty queue, id -1 and no change; otherwise the oldest request, removed from the front |
| LimQueue.DumpQueueStatus | HW3/server_lim.c:107-130 | lists the `count` resident ids from `front`, in serving order |
| LimQueue.Receive | HW3/server_lim.c:355-384 | an admitted request produces no output; a refused one leaves the queue unchanged and yields the reply with its own id and ack 1, the `X` line, then the queue dump |
| LimQueue.Run | HW3/server_lim.c:133-194 | any schedule keeps the queue valid and its capacity |
| LimQueue.RunIsFifo | HW3/server_lim.c:133-194 | served requests followed by those still queued equal the initial contents followed by every admitted request |
| LimQueue.ServedInAdmissionOrder | HW3/server_lim.c:133-194 | from a fresh queue, requests are served in exactly the order they were admitted |
| LimQueue.ZeroCapacityRefusesAll | HW3/server_lim.c:433-450 | with no `-q` option (capacity 0), the first reply to any request is a rejection |
| FixedQueue.Init | HW2/server_q.c:282-284 | the connection's queue starts empty with `front = rear = count = 0` and capacity QUEUE_SIZE (500) |
| FixedQueue.Add | HW2/server_q.c:91-120 | returns only -1 or 0: -1 and no change exactly when 500 requests are queued; otherwise 0 and the request joins the tail |
| FixedQueue.Get | HW2/server_q.c:123-153 | id -1 and no change on an empty queue; otherwise the oldest request, removed from the front |
| FixedQueue.DumpQueueStatus | HW2/server_q.c:157-174 | lists the `count` ids from `front` in serving order, comma-separated |
| FixedQueue.Receive | HW2/server_q.c:337-352 | a request that fits is queued silently; one that does not leaves the queue unchanged and yields only the standard-error message; no response is ever sent |
| FixedQueue.FillAllAppends | HW2/server_q.c:99-110 | enqueuing requests one by one appends them in order while there is room |
| FixedQueue.FiveHundredAndFirstIsDropped | HW2/server_q.c:350-351 | after 500 admissions with no dequeue, the next request is dropped with only the standard-error message |
| ImageStore.Empty | HW6/server_img.c:538-539 | the table starts with no image, registration counter 0 and minting from 1024 |
| ImageStore.Apply | HW6/server_img.c:263-288 | each transform opcode runs its own kernel; any other opcode yields no image |
| ImageStore.MintId | HW6/server_img.c:219-222 | returns the counter and leaves it one higher |
| ImageStore.MintedIdsIncrease | HW6/server_img.c:219-222 | a minted handle is at least 1024, names no existing image, and the next one minted is larger |
| ImageStore.Register | HW6/server_img.c:590-627 | rejected with handle 0 and no change exactly when 1024 images are registered or the payload did not decode; otherwise the image is stored at `counter`, the reply carries `counter`, the `T1` log line follows with the request's id, timestamp, opcode and overwrite flag, handle 0 as source and `counter` as result, and the three clock readings in order, and the counter moves on |
| ImageStore.Dispatch | HW6/server_img.c:256-385 | non-RETRIEVE on an absent handle is rejected; RETRIEVE of a present image replies, sends it, logs a `T` line with the worker, the request's fields and the handle in both handle columns, then dumps the queue; RETRIEVE of an absent one outputs nothing; a transform of a present image whose kernel fails is rejected, and one that succeeds leaves the table as the overwrite policy (`Stored`) places the result, replies with the result's handle, logs a `T` line with the source and result handles, then dumps the queue; unknown operations are rejected; the registration counter never changes and the table invariant is kept |
| ImageStore.Stored | HW6/server_img.c:336-349 | overwrite 0 stores the result under a fresh minted handle and keeps every other entry; otherwise the result replaces the source entry |
| ImageStore.TransformOverwritePolicy | HW6/server_img.c:336-371 | a successful transform's reply names the handle holding the result: fresh and leaving every old image untouched without overwrite, the source handle with overwrite |
| ImageStore.FailedTransformRejects | HW6/server_img.c:371-385 | an absent source, an unknown opcode or a failed kernel is answered with the request id, handle 0 and REJECTED, and the table is unchanged |
| ImageStore.RegisterThenRetrieve | HW6/server_img.c:600-607 | a RETRIEVE of the handle a registration returned sends back the registered image |
| ImageStore.FirstHandleIsRejectionHandle | HW6/server_img.c:538 | the first registration on a connection replies with handle 0, the same value a rejection carries |
| ImageStore.ArrayPut | HW6/server_img.c:59 | a write into the 1024-entry `image_array` is defined exactly for handles below 1024 |
| ImageStore.MintedHandleOverrunsArray | HW6/server_img.c:340-341 | the handle a non-overwriting transform stores under lies outside `image_array` |
| ImageStore.MintedHandleRetrievable | HW6/server_img.c:338-341 | with the table as a map, a RETRIEVE of a minted handle sends back the transform's result |
| ImgServer.Open | HW6/server_img.c:538-548 | a connection starts with an empty valid queue of the requested size and an empty table |
| ImgServer.Arrive | HW6/server_img.c:590-641 | REGISTER bypasses the queue and its table change and outputs are those of `ImageStore.Register`; any other request leaves the table alone and is appended to the queue, or on a full queue is rejected with handle 0 and logged as an `X` line with nothing changed |
| ImgServer.Serve | HW6/server_img.c:235-385 | the worker takes the oldest queued request, the rest stay in order, and its outputs and the table afterwards are those of the dispatch of that request |
| ImgServer.FullQueueRejectsBeforeDispatch | HW6/server_img.c:630-641 | with no free slot, a transform request changes nothing and its first output is the rejection |
| ImgServer.QueuedRetrieveIsServed | HW6/server_img.c:285-324 | a RETRIEVE queued on an empty queue is served next and sends the stored image |
| ClockArgs.Strtol | HW1/clock.c:48 | the value lies in the `long` range, the end pointer is a suffix of the input, and reading nothing yields 0 |
| ClockArgs.StrtolReadsDigits | HW1/clock.c:48 | a digit run not preceded by space or sign and not followed by a digit is read entirely, with the end pointer on what follows |
| ClockArgs.StrtolReadsDecimal | HW1/clock.c:48 | any non-negative `long` printed in decimal is read back exactly |
| ClockArgs.StrtolReadsNegative | HW1/clock.c:48 | a minus sign before a positive count is read as its negative |
| ClockArgs.Decide | HW1/clock.c:48-67 | accepted exactly when the seconds are fully read and non-negative, the nanoseconds fully read and in `[0, NANO_IN_SEC)`, and the method character is `s` or `b`; otherwise the first failing check, in the source's order, decides the message; the label is SLEEP exactly for `s` |
| ClockArgs.Validate | HW1/clock.c:41-67 | a wrong argument count gives the usage message; otherwise the parsed arguments decide; an accepted result has seconds in `[0, LONG_MAX]`, nanoseconds below one second, a non-empty method argument, and the label SLEEP exactly when it starts with `s` |
| ClockArgs.AcceptsWellFormed | HW1/clock.c:41-67 | decimal seconds and nanoseconds in range, with method `s` or `b`, are accepted with exactly those values |
| ClockArgs.RejectsNegativeSeconds | HW1/clock.c:48-52 | a negative seconds count is refused with the seconds message |
| ClockArgs.RejectsTrailingText | HW1/clock.c:48-52 | a seconds count followed by a non-digit is refused with the seconds message |
| ClockArgs.NanosecondsBound | HW1/clock.c:54-58 | a decimal nanoseconds count passes exactly when it is below one second, and is otherwise refused with the nanoseconds message |
| ClockArgs.EmptySecondsReadAsZero | HW1/clock.c:47-52 | an empty seconds argument is accepted as 0 seconds |
| Reverse.Reversed | HW0/reverse.c:18-20 | the reference reversal: same length, character `i` is the input's character `len - 1 - i` |
| Reverse.ReversedTwice | HW0/reverse.c:18-20 | reversing twice gives the original string |
| Reverse.Run | HW0/reverse.c:4-24 | a wrong argument count prints the usage line and exits 1; otherwise the output is the reversed argument plus a newline and the exit status is 0 |
| Reverse.OutputLength | HW0/reverse.c:18-21 | the output is `len` characters plus one newline, and an empty argument prints only the newline |

## Left out

- Sockets, `recv`/`send`, `getopt` and the server start-up in `main`. The request stream is a sequence of calls; `main`'s refusal of a zero queue size appears as the `requires` of `ImgServer.Open` and `ImgQueue.Init`.
- Threads and semaphores: `pthread_create`/`join`, the queue mutex and notify semaphore, `control_workers` and the termination-flag handshake. Each queue operation is the state change made while holding the mutex. A dequeue from an empty queue in a schedule is a worker still blocked.
- The worker loops of the two earlier servers and the busy-wait request processing. They are not part of this model.
- Clock readings: `clock_gettime` values are parameters. So are `rdtsc`, `nanosleep`, `get_elapsed_sleep` and the busy-wait loop itself; only its borrow step and exit test are modelled.
- Floating point: `TSPEC_TO_DOUBLE`, the `%lf` columns of the log lines (kept as `Timespec` fields of an output record) and the clock-speed computation.
- The image library: decoding, encoding and the kernels are parameters, and `deleteImage` has no counterpart in a map.
- The image server's status dump after a completed request reads the queue while the connection thread may be adding to it. The model uses the queue as the worker left it.
- `malloc` failure and the value of uninitialised slots.
- Out-of-range handles: the worker indexes `image_array` with whatever `img_id` the client sent, so a handle of 1024 or more (never minted, or minted by a transform) reads past the 1024-entry array, which is undefined behaviour in the source. The table here is a map, so such a handle is bounds-checked: it is absent (rejected, or no output for RETRIEVE) unless a transform stored an image under it. The write side of the same overrun is the second finding below.
- 64-bit widths: `tv_sec`, `tv_nsec`, request ids and the `uint64_t` minting counter are unbounded integers. Their wrap-around is not modelled; `strtol` saturation is.
- Timelib.Add: the result's total is stated in `Timelib.AddPreservesTotal` rather than in its own contract.
- ImgQueue.Get: its contract says nothing about the returned item or the contents, because the source has no emptiness test. `ImgQueue.GetTakesOldest` and `ImgQueue.GetOnEmptyOverflowsCounts` cover the two cases.
- The SJN policy: it is declared but never implemented, and start-up accepts only FIFO and one worker.
- The Python evaluation scripts, `HW0/echo.c`, `HW2/server_mt.c` and `HW1/server.c`.
- common.h and timelib.h are not part of this model. The opcode numbers (REGISTER 0 … HORIZEDGES 6), the ack values (COMPLETED 0, REJECTED 1) and `NANO_IN_SEC` = 10^9 follow the protocol's declaration order and the library's name.

## Findings

| source | as written | input that shows it | evidently intended | confidence | as-written member | corrected member |
|---|---|---|---|---|---|---|
| HW1/timelib.c:114 | the carry is taken only when the nanosecond sum is strictly above `NANO_IN_SEC` | `{0, 500000000}` + `{0, 500000000}` gives `{0, 1000000000}`, which `timespec_cmp` ranks before `{1, 0}` | carry at `>=`, so that normalised inputs give a normalised sum | not executed | Timelib.AddLeavesFullSecond | Timelib.AddNormalised |
| HW6/server_img.c:340-341 | a non-overwriting transform stores its result at `image_array[get_new_image_id()]`, and the first minted id is 1024 | the first transform with `overwrite` 0 writes `image_array[1024]`, one past the 1024-entry array | minted handles name real table entries that a later RETRIEVE finds | not executed | ImageStore.MintedHandleOverrunsArray | ImageStore.MintedHandleRetrievable |

=== FILE: clock_args.dfy ===
/**
 * The argument checks at the top of the clock-measurement program: a
 * seconds count, a nanoseconds count and a wait method, each read with
 * `strtol` and refused with its own message on standard error.
 *
 * `strtol` is modelled as the C library specifies it for base 10: leading
 * white space is skipped, one optional sign is read, then the longest run
 * of digits; the value saturates at the bounds of a 64-bit `long`; and when
 * no digit follows, nothing is consumed and the end pointer is the start of
 * the string. The program checks the end pointer but not `errno`.
 */
module ClockArgs {
  import opened Timelib
  import Format

  const LONG_MAX: int := 0x7fff_ffff_ffff_ffff
  const LONG_MIN: int := -0x8000_0000_0000_0000

  /** `isspace` in the C locale: space, and tab through carriage return. */
  predicate IsSpace(c: char) {
    c == ' ' || 9 <= c as int <= 13
  }

  /** The number of leading white-space characters. */
  function SpaceRun(s: string): (n: nat)
    ensures n <= |s|
    ensures forall i :: 0 <= i < n ==> IsSpace(s[i])
    ensures n < |s| ==> !IsSpace(s[n])
  {
    if |s| == 0 || !IsSpace(s[0]) then 0 else 1 + SpaceRun(s[1..])
  }

  /** The number of leading decimal digits. */
  function DigitRun(s: string): (n: nat)
    ensures n <= |s|
    ensures forall i :: 0 <= i < n ==> Format.IsDigit(s[i])
    ensures n < |s| ==> !Format.IsDigit(s[n])
  {
    if |s| == 0 || !Format.IsDigit(s[0]) then 0 else 1 + DigitRun(s[1..])
  }

  /** A value forced into the range of `long`, as `strtol` does on overflow. */
  function Saturate(v: int): (r: int)
    ensures LONG_MIN <= r <= LONG_MAX
    ensures LONG_MIN <= v <= LONG_MAX ==> r == v
  {
    if v > LONG_MAX then LONG_MAX else if v < LONG_MIN then LONG_MIN else v
  }

  /** The value `strtol` returns and the text left at its end pointer. */
  datatype Parsed = Parsed(value: int, rest: string)

  /** `strtol(s, &endptr, 10)`. */
  function Strtol(s: string): (r: Parsed)
    ensures LONG_MIN <= r.value <= LONG_MAX
    ensures |r.rest| <= |s| && r.rest == s[|s| - |r.rest|..]
    ensures r.rest == s ==> r.value == 0
  {
    var sp := SpaceRun(s);
    var signed := sp < |s| && (s[sp] == '-' || s[sp] == '+');
    var from := if signed then sp + 1 else sp;
    var d := DigitRun(s[from..]);
    if d == 0 then
      Parsed(0, s)
    else
      var magnitude: int := Format.DigitsValue(s[from..from + d]);
      Parsed(Saturate(if signed && s[sp] == '-' then -magnitude else magnitude), s[from + d..])
  }

  /** The two wait methods the third argument can select. */
  datatype Method = Sleep | BusyWait

  /** What the program goes on to do, or the message it exits with. */
  datatype Checked =
    | Rejected(message: string)
    | Accepted(sec: int, nsec: int, wait: Method)

  function UsageMessage(prog: string): string {
    "Usage: " + prog + " <seconds> <nanoseconds> <s|b>\n"
  }

  const BAD_SECONDS: string := "Invalid seconds value.\n"
  const BAD_NANOSECONDS: string := "Invalid nanoseconds value.\n"
  const BAD_METHOD: string := "Invalid method. Use 's' for sleep or 'b' for busy-wait.\n"

  /** `argv[3][0]`: the terminating NUL for an empty argument. */
  function FirstChar(s: string): char {
    if |s| == 0 then '\0' else s[0]
  }

  /** The label printed on the WaitMethod line. */
  function MethodLabel(m: Method): string {
    if m == Sleep then "SLEEP" else "BUSYWAIT"
  }

  /** A seconds argument is taken when all of it is read and it is not negative. */
  predicate SecondsOk(p: Parsed) {
    p.rest == "" && p.value >= 0
  }

  /** A nanoseconds argument must also be below one second. */
  predicate NanosecondsOk(p: Parsed) {
    p.rest == "" && 0 <= p.value < NANO_IN_SEC
  }

  /**
   * The three checks on the parsed arguments, in the source's order: the
   * first failure decides the message.
   */
  function Decide(sec: Parsed, nsec: Parsed, c: char): (r: Checked)
    ensures r.Accepted? <==> SecondsOk(sec) && NanosecondsOk(nsec) && (c == 's' || c == 'b')
    ensures r.Accepted? ==>
      && r.sec == sec.value && r.nsec == nsec.value
      && (MethodLabel(r.wait) == "SLEEP" <==> c == 's')
    ensures !SecondsOk(sec) ==> r == Rejected(BAD_SECONDS)
    ensures SecondsOk(sec) && !NanosecondsOk(nsec) ==> r == Rejected(BAD_NANOSECONDS)
    ensures SecondsOk(sec) && NanosecondsOk(nsec) && c != 's' && c != 'b' ==> r == Rejected(BAD_METHOD)
  {
    if sec.rest != "" || sec.value < 0 then
      Rejected(BAD_SECONDS)
    else if nsec.rest != "" || nsec.value < 0 || nsec.value >= NANO_IN_SEC then
      Rejected(BAD_NANOSECONDS)
    else if c != 's' && c != 'b' then
      Rejected(BAD_METHOD)
    else
      Accepted(sec.value, nsec.value, if c == 's' then Sleep else BusyWait)
  }

  /**
   * The validation part of main, for a program name and the arguments after
   * it: the argument count first, then each argument in turn.
   */
  function Validate(prog: string, args: seq<string>): (r: Checked)
    ensures |args| != 3 ==> r == Rejected(UsageMessage(prog))
    ensures r.Accepted? ==>
      && |args| == 3 && 0 <= r.sec <= LONG_MAX && 0 <= r.nsec < NANO_IN_SEC
      && |args[2]| > 0 && (MethodLabel(r.wait) == "SLEEP" <==> args[2][0] == 's')
    ensures |args| == 3 ==> r == Decide(Strtol(args[0]), Strtol(args[1]), FirstChar(args[2]))
  {
    if |args| != 3 then
      Rejected(UsageMessage(prog))
    else
      Decide(Strtol(args[0]), Strtol(args[1]), FirstChar(args[2]))
  }

  /** Every character of a rendered number is a digit, so the digit run covers it. */
  lemma {:induction false} DigitRunOfDigits(s: string, tail: string)
    requires forall i :: 0 <= i < |s| ==> Format.IsDigit(s[i])
    requires |tail| > 0 ==> !Format.IsDigit(tail[0])
    ensures DigitRun(s + tail) == |s|
    decreases |s|
  {
    if |s| == 0 {
      assert s + tail == tail;
    } else {
      assert (s + tail)[1..] == s[1..] + tail;
      DigitRunOfDigits(s[1..], tail);
    }
  }

  /**
   * A run of digits that does not start with white space or a sign, followed
   * by text that does not start with a digit: `strtol` reads exactly the run.
   */
  lemma StrtolReadsDigits(s: string, tail: string)
    requires |s| > 0 && forall i :: 0 <= i < |s| ==> Format.IsDigit(s[i])
    requires |tail| > 0 ==> !Format.IsDigit(tail[0])
    ensures Strtol(s + tail) == Parsed(Saturate(Format.DigitsValue(s)), tail)
  {
    var x := s + tail;
    assert SpaceRun(x) == 0 by {
      assert x[0] == s[0];
    }
    assert !(x[0] == '-' || x[0] == '+') by {
      assert x[0] == s[0];
    }
    assert DigitRun(x[0..]) == |s| by {
      assert x[0..] == x;
      DigitRunOfDigits(s, tail);
    }
    assert x[0..|s|] == s;
    assert x[|s|..] == tail;
  }

  /** `strtol` reads back any non-negative `long` printed in decimal, consuming all of it. */
  lemma StrtolReadsDecimal(n: nat, tail: string)
    requires n <= LONG_MAX
    requires |tail| > 0 ==> !Format.IsDigit(tail[0])
    ensures Strtol(Format.NatToString(n) + tail) == Parsed(n, tail)
  {
    StrtolReadsDigits(Format.NatToString(n), tail);
    Format.NatToStringValue(n);
  }

  /** A decimal argument with nothing after it. */
  lemma ReadsWhole(n: nat)
    requires n <= LONG_MAX
    ensures Strtol(Format.NatToString(n)) == Parsed(n, "")
  {
    StrtolReadsDecimal(n, "");
    assert Format.NatToString(n) + "" == Format.NatToString(n);
  }

  /** A minus sign before a positive count is read as a negative value. */
  lemma StrtolReadsNegative(n: int)
    requires 0 < n <= LONG_MAX
    ensures Strtol("-" + Format.NatToString(n)) == Parsed(-n, "")
  {
    var s := Format.NatToString(n);
    var t := "-" + s;
    assert SpaceRun(t) == 0;
    assert DigitRun(t[1..]) == |s| by {
      assert t[1..] == s + "";
      DigitRunOfDigits(s, "");
    }
    assert t[1..1 + |s|] == s;
    assert t[1 + |s|..] == "";
    Format.NatToStringValue(n);
  }

  /**
   * Well-formed arguments are accepted with exactly the values written, and
   * the method is SLEEP for `s` and BUSYWAIT for `b`.
   */
  lemma AcceptsWellFormed(prog: string, sec: nat, nsec: nat, choice: string)
    requires sec <= LONG_MAX && nsec < NANO_IN_SEC
    requires |choice| > 0 && (choice[0] == 's' || choice[0] == 'b')
    ensures Validate(prog, [Format.NatToString(sec), Format.NatToString(nsec), choice])
         == Accepted(sec, nsec, if choice[0] == 's' then Sleep else BusyWait)
  {
    var secArg, nsecArg := Format.NatToString(sec), Format.NatToString(nsec);
    assert Strtol(secArg) == Parsed(sec, "") by { ReadsWhole(sec); }
    assert Strtol(nsecArg) == Parsed(nsec, "") by { ReadsWhole(nsec); }
  }

  /** A negative seconds count is refused. */
  lemma RejectsNegativeSeconds(prog: string, n: nat, nsec: string, choice: string)
    requires 0 < n <= LONG_MAX
    ensures Validate(prog, ["-" + Format.NatToString(n), nsec, choice]) == Rejected(BAD_SECONDS)
  {
    StrtolReadsNegative(n);
  }

  /** A seconds count followed by anything that is not a digit is refused. */
  lemma RejectsTrailingText(prog: string, n: nat, tail: string, nsec: string, choice: string)
    requires n <= LONG_MAX && |tail| > 0 && !Format.IsDigit(tail[0])
    ensures Validate(prog, [Format.NatToString(n) + tail, nsec, choice]) == Rejected(BAD_SECONDS)
  {
    StrtolReadsDecimal(n, tail);
  }

  /** A decimal nanoseconds count passes exactly when it is below one second. */
  lemma NanosecondsBound(prog: string, sec: nat, n: nat)
    requires sec <= LONG_MAX && n <= LONG_MAX
    ensures Validate(prog, [Format.NatToString(sec), Format.NatToString(n), "s"]).Accepted? <==> n < NANO_IN_SEC
    ensures n >= NANO_IN_SEC ==>
      Validate(prog, [Format.NatToString(sec), Format.NatToString(n), "s"]) == Rejected(BAD_NANOSECONDS)
  {
    var secArg, nsecArg := Format.NatToString(sec), Format.NatToString(n);
    assert Strtol(secArg) == Parsed(sec, "") by { ReadsWhole(sec); }
    assert Strtol(nsecArg) == Parsed(n, "") by { ReadsWhole(n); }
  }

  /**
   * An empty seconds argument holds no digits: `strtol` returns 0 with the
   * end pointer on the terminating NUL, and the check lets it through.
   */
  lemma EmptySecondsReadAsZero(prog: string, nsec: nat, choice: string)
    requires nsec < NANO_IN_SEC
    requires |choice| > 0 && (choice[0] == 's' || choice[0] == 'b')
    ensures Validate(prog, ["", Format.NatToString(nsec), choice])
         == Accepted(0, nsec, if choice[0] == 's' then Sleep else BusyWait)
  {
    assert Strtol("") == Parsed(0, "") by {
      assert SpaceRun("") == 0;
      assert DigitRun("") == 0;
    }
    ReadsWhole(nsec);
  }
}

=== FILE: fixed_queue.dfy ===
/**
 * The first queueing server's request queue: the same ring as the
 * limited-queue server, with the capacity fixed at compile time to
 * QUEUE_SIZE, and a connection loop that drops a request it cannot queue
 * without answering it.
 */
module FixedQueue {
  import opened Timelib
  import Ring
  import Format
  import LimQueue

  /** Capacity of this server's ring, fixed at compile time. */
  const QUEUE_SIZE: nat := 500

  /** A queue of this server: a valid ring of exactly QUEUE_SIZE slots. */
  predicate Fixed(q: LimQueue.Queue) {
    LimQueue.Valid(q) && q.capacity == QUEUE_SIZE
  }

  /** The queue set up in handle_connection: `front = rear = count = 0`. */
  function Init(): (q: LimQueue.Queue)
    ensures Fixed(q)
    ensures LimQueue.Contents(q) == []
    ensures q.front == 0 && q.rear == 0 && q.count == 0
  {
    LimQueue.Init(QUEUE_SIZE)
  }

  /**
   * add_to_queue: -1 exactly when 500 requests are already queued, with
   * nothing changed; otherwise the request joins the tail and 0 is returned.
   */
  function Add(q: LimQueue.Queue, x: LimQueue.ServerRequest): (r: LimQueue.Added)
    requires Fixed(q)
    ensures Fixed(r.queue)
    ensures r.retval == -1 || r.retval == 0
    ensures r.retval == -1 <==> |LimQueue.Contents(q)| == QUEUE_SIZE
    ensures r.retval == -1 ==> r.queue == q
    ensures r.retval == 0 ==> LimQueue.Contents(r.queue) == LimQueue.Contents(q) + [x]
  {
    LimQueue.Add(q, x)
  }

  /**
   * get_from_queue: the id -1 and no change on an empty queue; otherwise the
   * oldest request, removed from the front.
   */
  function Get(q: LimQueue.Queue): (r: LimQueue.Got)
    requires Fixed(q)
    ensures Fixed(r.queue)
    ensures |LimQueue.Contents(q)| == 0 ==> r.item.req.reqId == LimQueue.SENTINEL_ID && r.queue == q
    ensures |LimQueue.Contents(q)| > 0 ==> r.item == LimQueue.Contents(q)[0] && LimQueue.Contents(r.queue) == LimQueue.Contents(q)[1..]
  {
    LimQueue.Get(q)
  }

  /** dump_queue_status: the queued ids, oldest first, comma-separated. */
  method DumpQueueStatus(q: LimQueue.Queue) returns (line: string)
    requires Fixed(q)
    ensures line == Ring.StatusLine(LimQueue.ReqIds(LimQueue.Contents(q)))
  {
    line := LimQueue.DumpQueueStatus(q);
  }

  /** `Queue is full. Dropping request R<id>.` and a newline. */
  function DropMessage(reqId: int): string {
    "Queue is full. Dropping request R" + Format.IntToString(reqId) + ".\n"
  }

  /**
   * One request read by this server's connection loop. A request that does
   * not fit is dropped: the client gets no response at all, only standard
   * error hears of it.
   */
  function Receive(q: LimQueue.Queue, req: LimQueue.Request, receipt: Timespec): (r: LimQueue.Received)
    requires Fixed(q)
    ensures Fixed(r.queue)
    ensures |LimQueue.Contents(q)| < QUEUE_SIZE ==>
      LimQueue.Contents(r.queue) == LimQueue.Contents(q) + [LimQueue.ServerRequest(req, receipt)] && r.outputs == []
    ensures |LimQueue.Contents(q)| == QUEUE_SIZE ==> r.queue == q && r.outputs == [LimQueue.Stderr(DropMessage(req.reqId))]
    ensures forall o :: o in r.outputs ==> !o.Reply?
  {
    var added := Add(q, LimQueue.ServerRequest(req, receipt));
    if added.retval == -1 then LimQueue.Received(q, [LimQueue.Stderr(DropMessage(req.reqId))])
    else LimQueue.Received(added.queue, [])
  }

  /**
   * The 501st request in a row, with no dequeue in between, is dropped
   * without a reply, and the queue keeps the first 500.
   */
  lemma FiveHundredAndFirstIsDropped(q: LimQueue.Queue, reqs: seq<LimQueue.ServerRequest>, last: LimQueue.Request, receipt: Timespec)
    requires Fixed(q) && LimQueue.Contents(q) == []
    requires |reqs| == QUEUE_SIZE
    ensures var full := FillAll(q, reqs);
      && Fixed(full)
      && LimQueue.Contents(full) == reqs
      && Receive(full, last, receipt).outputs == [LimQueue.Stderr(DropMessage(last.reqId))]
  {
    FillAllAppends(q, reqs);
  }

  /** Enqueues each request in turn. */
  function FillAll(q: LimQueue.Queue, reqs: seq<LimQueue.ServerRequest>): (r: LimQueue.Queue)
    requires Fixed(q)
    ensures Fixed(r)
    decreases |reqs|
  {
    if |reqs| == 0 then q else FillAll(Add(q, reqs[0]).queue, reqs[1..])
  }

  lemma {:induction false} FillAllAppends(q: LimQueue.Queue, reqs: seq<LimQueue.ServerRequest>)
    requires Fixed(q) && |LimQueue.Contents(q)| + |reqs| <= QUEUE_SIZE
    ensures LimQueue.Contents(FillAll(q, reqs)) == LimQueue.Contents(q) + reqs
    decreases |reqs|
  {
    if |reqs| == 0 {
      assert LimQueue.Contents(q) + reqs == LimQueue.Contents(q);
    } else {
      var q' := Add(q, reqs[0]).queue;
      FillAllAppends(q', reqs[1..]);
      Ring.AppendAssoc(LimQueue.Contents(q), [reqs[0]], reqs[1..]);
      assert [reqs[0]] + reqs[1..] == reqs;
    }
  }
}

=== FILE: format.dfy ===
/**
 * Decimal rendering of integers (the `%ld` conversion of printf) and the
 * comma-joined lists used by the queue status lines.
 */
module Format {

  predicate IsDigit(c: char) {
    '0' <= c <= '9'
  }

  function DigitChar(d: nat): (c: char)
    requires d < 10
    ensures IsDigit(c)
    ensures DigitValue(c) == d
  {
    ['0', '1', '2', '3', '4', '5', '6', '7', '8', '9'][d]
  }

  function DigitValue(c: char): nat
    requires IsDigit(c)
  {
    (c as int - '0' as int) as nat
  }

  /** Value of a string of decimal digits, most significant first. */
  function DigitsValue(s: string): nat
    requires forall i :: 0 <= i < |s| ==> IsDigit(s[i])
  {
    if |s| == 0 then 0 else DigitsValue(s[..|s| - 1]) * 10 + DigitValue(s[|s| - 1])
  }

  /** `%ld` of a non-negative value: no leading zeros, "0" for zero. */
  function NatToString(n: nat): (s: string)
    ensures |s| > 0
    ensures forall i :: 0 <= i < |s| ==> IsDigit(s[i])
    ensures |s| > 1 ==> s[0] != '0'
    decreases n
  {
    if n < 10 then [DigitChar(n)] else NatToString(n / 10) + [DigitChar(n % 10)]
  }

  /** `%ld` of any value: a minus sign before the magnitude of a negative one. */
  function IntToString(i: int): string {
    if i < 0 then "-" + NatToString(-i) else NatToString(i)
  }

  /** Reading back the decimal rendering gives the number that was printed. */
  lemma {:induction false} NatToStringValue(n: nat)
    ensures DigitsValue(NatToString(n)) == n
    decreases n
  {
    var s := NatToString(n);
    if n >= 10 {
      NatToStringValue(n / 10);
      assert s[..|s| - 1] == NatToString(n / 10);
    }
  }

  /** The elements of `xs` separated by single commas; no trailing comma. */
  function Join(xs: seq<string>): string {
    if |xs| == 0 then ""
    else if |xs| == 1 then xs[0]
    else Join(xs[..|xs| - 1]) + "," + xs[|xs| - 1]
  }

  /** Appending one element to a non-empty list adds exactly one comma before it. */
  lemma JoinSnoc(xs: seq<string>, x: string)
    requires |xs| > 0
    ensures Join(xs + [x]) == Join(xs) + "," + x
  {
    assert (xs + [x])[..|xs|] == xs;
  }
}

=== FILE: image_store.dfy ===
/**
 * The image server's per-connection handle table and what a worker does
 * with one dequeued request.
 *
 * Handles come from two sources: registration hands out `counter`
 * (0, 1, 2, ... while below IMAGE_SLOTS), and a transform that does not
 * overwrite its source takes a fresh handle from get_new_image_id
 * (IMAGE_SLOTS, IMAGE_SLOTS + 1, ...). The table is modelled as a map, so a
 * minted handle names a real entry; the array the source declares has only
 * IMAGE_SLOTS entries, which `ArrayPut` below models.
 *
 * The kernels are functions supplied by the image library; each may fail
 * (an error flag or a null image), which `None` stands for.
 */
module ImageStore {
  import opened Wrappers
  import opened Timelib
  import opened ImgProtocol

  /** The number of entries of `image_array`, and the registration limit. */
  const IMAGE_SLOTS: nat := 1024

  /** The first handle get_new_image_id returns. */
  const FIRST_MINTED: nat := 1024

  /** The image library's transforms, one per operation. */
  datatype Kernels = Kernels(
    rotate90Clockwise: Image -> Option<Image>,
    blur: Image -> Option<Image>,
    sharpen: Image -> Option<Image>,
    verticalEdges: Image -> Option<Image>,
    horizontalEdges: Image -> Option<Image>)

  /**
   * The handle table, the registration counter of handle_connection and the
   * static counter of get_new_image_id.
   */
  datatype Store = Store(images: map<nat, Image>, counter: nat, nextMinted: nat)

  /**
   * Registered handles lie below `counter`, which never passes IMAGE_SLOTS;
   * minted handles lie in `[FIRST_MINTED, nextMinted)`.
   */
  predicate Inv(s: Store) {
    && s.counter <= IMAGE_SLOTS
    && FIRST_MINTED <= s.nextMinted
    && forall id :: id in s.images ==> id < s.counter || FIRST_MINTED <= id < s.nextMinted
  }

  /** The table as a connection starts: cleared, counter 0, minting from FIRST_MINTED. */
  function Empty(): (s: Store)
    ensures Inv(s)
    ensures forall id: nat :: id !in s.images
    ensures s.counter == 0 && s.nextMinted == FIRST_MINTED
  {
    Store(map[], 0, FIRST_MINTED)
  }

  /** The operations a worker applies a kernel for. */
  predicate IsTransform(op: nat) {
    op == IMG_ROT90CLKW || op == IMG_BLUR || op == IMG_SHARPEN
    || op == IMG_VERTEDGES || op == IMG_HORIZEDGES
  }

  /** The worker's switch on the operation: `None` for a failed kernel or an unknown operation. */
  function Apply(k: Kernels, op: nat, img: Image): (r: Option<Image>)
    ensures !IsTransform(op) ==> r == None
    ensures op == IMG_ROT90CLKW ==> r == k.rotate90Clockwise(img)
    ensures op == IMG_BLUR ==> r == k.blur(img)
    ensures op == IMG_SHARPEN ==> r == k.sharpen(img)
    ensures op == IMG_VERTEDGES ==> r == k.verticalEdges(img)
    ensures op == IMG_HORIZEDGES ==> r == k.horizontalEdges(img)
  {
    if op == IMG_ROT90CLKW then k.rotate90Clockwise(img)
    else if op == IMG_BLUR then k.blur(img)
    else if op == IMG_SHARPEN then k.sharpen(img)
    else if op == IMG_VERTEDGES then k.verticalEdges(img)
    else if op == IMG_HORIZEDGES then k.horizontalEdges(img)
    else None
  }

  datatype Minted = Minted(id: nat, next: nat)

  /** get_new_image_id: the counter's value, and the counter one higher. */
  function MintId(next: nat): (m: Minted)
    ensures m.id == next && m.next == m.id + 1
  {
    Minted(next, next + 1)
  }

  /** Each minted handle is larger than every handle minted before it, and none is a registration handle. */
  lemma MintedIdsIncrease(s: Store)
    requires Inv(s)
    ensures MintId(s.nextMinted).id >= IMAGE_SLOTS
    ensures MintId(s.nextMinted).id !in s.images
    ensures MintId(MintId(s.nextMinted).next).id > MintId(s.nextMinted).id
  {
  }

  /** A state change and what it wrote, in order. */
  datatype Step = Step(store: Store, outputs: seq<Output>)

  /**
   * The REGISTER branch of handle_connection. With IMAGE_SLOTS images
   * already registered the request is rejected before the payload is read;
   * a payload that fails to decode is rejected too. Otherwise the image is
   * stored at handle `counter`, the reply carries that handle, the log line
   * is stamped `T1` with 0 in the source-handle column, and the counter
   * moves on.
   */
  function Register(s: Store, req: Request, payload: Option<Image>, receipt: Timespec, start: Timespec, completion: Timespec): (r: Step)
    requires Inv(s)
    ensures Inv(r.store)
    ensures r.store == s <==> s.counter >= IMAGE_SLOTS || payload.None?
    ensures r.store == s ==> r.outputs == [Reply(Rejection(req))]
    ensures r.store != s ==>
      && r.store.images == s.images[s.counter := payload.value]
      && r.store.counter == s.counter + 1
      && r.store.nextMinted == s.nextMinted
      && |r.outputs| == 2
      && r.outputs[0] == Reply(Response(req.reqId, s.counter, RESP_COMPLETED))
      && r.outputs[1] == Completion(1, req.reqId, req.reqTimestamp, req.imgOp, req.overwrite,
                                    0, s.counter, receipt, start, completion)
  {
    if s.counter >= IMAGE_SLOTS then
      Step(s, [Reply(Rejection(req))])
    else if payload.None? then
      Step(s, [Reply(Rejection(req))])
    else
      assert s.counter !in s.images;
      Step(s.(images := s.images[s.counter := payload.value], counter := s.counter + 1),
           [Reply(Response(req.reqId, s.counter, RESP_COMPLETED)),
            Completion(1, req.reqId, req.reqTimestamp, req.imgOp, req.overwrite, 0, s.counter, receipt, start, completion)])
  }

  /** The rejection a worker sends: the request's id, handle 0, REJECTED. */
  function Reject(s: Store, req: Request): Step {
    Step(s, [Reply(Rejection(req))])
  }

  /**
   * The body of worker_main's loop for one dequeued request.
   *
   * Anything but RETRIEVE on a handle with no image is rejected. RETRIEVE of
   * a present image sends the reply, the image, the log line and the queue
   * status; RETRIEVE of an absent image sends nothing at all. A kernel
   * failure or an unknown operation is rejected. A successful transform is
   * stored under a fresh handle when `overwrite` is 0, and in place of its
   * source otherwise; the reply carries the handle it was stored under.
   * `status` is the queue dump printed after a completed request.
   */
  function Dispatch(s: Store, k: Kernels, worker: nat, meta: RequestMeta, start: Timespec, completion: Timespec, status: string): (r: Step)
    requires Inv(s)
    ensures Inv(r.store)
    ensures r.store.counter == s.counter
    ensures meta.request.imgId !in s.images ==> r.store == s
    ensures meta.request.imgId !in s.images && meta.request.imgOp != IMG_RETRIEVE ==>
      r.outputs == [Reply(Rejection(meta.request))]
    ensures meta.request.imgId !in s.images && meta.request.imgOp == IMG_RETRIEVE ==> r.outputs == []
    ensures meta.request.imgOp == IMG_RETRIEVE ==> r.store == s
    ensures meta.request.imgOp == IMG_RETRIEVE && meta.request.imgId in s.images ==>
      |r.outputs| == 4 && r.outputs[3] == Status(status) &&
      r.outputs[2] == Completion(worker, meta.request.reqId, meta.request.reqTimestamp, IMG_RETRIEVE,
                                 meta.request.overwrite, meta.request.imgId, meta.request.imgId,
                                 meta.receipt, start, completion) &&
      r.outputs[..2] == [Reply(Response(meta.request.reqId, meta.request.imgId, RESP_COMPLETED)),
                         ImagePayload(s.images[meta.request.imgId])]
    ensures !IsTransform(meta.request.imgOp) && meta.request.imgOp != IMG_RETRIEVE ==>
      r == Reject(s, meta.request)
    ensures IsTransform(meta.request.imgOp) && meta.request.imgId in s.images ==>
      var applied := Apply(k, meta.request.imgOp, s.images[meta.request.imgId]);
      && (applied.None? ==> r == Reject(s, meta.request))
      && (applied.Some? ==>
            var p := Stored(s, meta.request, applied.value);
            && r.store == p.store
            && r.outputs == [Reply(Response(meta.request.reqId, p.id, RESP_COMPLETED)),
                             Completion(worker, meta.request.reqId, meta.request.reqTimestamp, meta.request.imgOp,
                                        meta.request.overwrite, meta.request.imgId, p.id,
                                        meta.receipt, start, completion),
                             Status(status)])
  {
    var req := meta.request;
    if req.imgOp != IMG_RETRIEVE && req.imgId !in s.images then
      Reject(s, req)
    else if req.imgOp == IMG_RETRIEVE then
      if req.imgId in s.images then
        Step(s, [Reply(Response(req.reqId, req.imgId, RESP_COMPLETED)),
                 ImagePayload(s.images[req.imgId]),
                 Completion(worker, req.reqId, req.reqTimestamp, req.imgOp, req.overwrite,
                            req.imgId, req.imgId, meta.receipt, start, completion),
                 Status(status)])
      else
        Step(s, [])
    else
      match Apply(k, req.imgOp, s.images[req.imgId])
      case None => Reject(s, req)
      case Some(result) =>
        var stored := Stored(s, req, result);
        Step(stored.store,
             [Reply(Response(req.reqId, stored.id, RESP_COMPLETED)),
              Completion(worker, req.reqId, req.reqTimestamp, req.imgOp, req.overwrite,
                         req.imgId, stored.id, meta.receipt, start, completion),
              Status(status)])
  }

  datatype Placed = Placed(store: Store, id: nat)

  /**
   * The overwrite policy: with `overwrite` 0 the result goes under a freshly
   * minted handle and the source stays; otherwise it replaces the source.
   */
  function Stored(s: Store, req: Request, result: Image): (p: Placed)
    requires Inv(s) && req.imgId in s.images
    ensures Inv(p.store)
    ensures p.store.counter == s.counter
    ensures p.id in p.store.images && p.store.images[p.id] == result
    ensures req.overwrite == 0 ==>
      && p.id == s.nextMinted && p.id !in s.images
      && p.store.nextMinted == s.nextMinted + 1
      && p.store.images == s.images[p.id := result]
    ensures req.overwrite != 0 ==>
      && p.id == req.imgId
      && p.store.nextMinted == s.nextMinted
      && p.store.images == s.images[req.imgId := result]
  {
    if req.overwrite == 0 then
      var m := MintId(s.nextMinted);
      Placed(s.(images := s.images[m.id := result], nextMinted := m.next), m.id)
    else
      Placed(s.(images := s.images[req.imgId := result]), req.imgId)
  }

  /**
   * A successful transform: the reply names the handle the result is stored
   * under; without overwrite that handle is fresh and every earlier image,
   * the source included, is untouched; with overwrite the reply names the
   * source handle, which now holds the result, and no other handle changes.
   */
  lemma TransformOverwritePolicy(s: Store, k: Kernels, worker: nat, meta: RequestMeta, start: Timespec, completion: Timespec, status: string)
    requires Inv(s) && meta.request.imgId in s.images
    requires IsTransform(meta.request.imgOp)
    requires Apply(k, meta.request.imgOp, s.images[meta.request.imgId]).Some?
    ensures var result := Apply(k, meta.request.imgOp, s.images[meta.request.imgId]).value;
      var r := Dispatch(s, k, worker, meta, start, completion, status);
      && r.outputs[0].Reply? && r.outputs[0].resp.ack == RESP_COMPLETED
      && var id := r.outputs[0].resp.imgId;
      && r.store.images[id] == result
      && (meta.request.overwrite == 0 ==>
            id >= FIRST_MINTED && id !in s.images
            && forall h :: h in s.images ==> h in r.store.images && r.store.images[h] == s.images[h])
      && (meta.request.overwrite != 0 ==>
            id == meta.request.imgId
            && r.store.images.Keys == s.images.Keys
            && forall h :: h in s.images && h != id ==> r.store.images[h] == s.images[h])
  {
  }

  /**
   * A transform that cannot complete (unknown operation or failed kernel)
   * is answered with handle 0 and REJECTED, and the table is as it was.
   */
  lemma FailedTransformRejects(s: Store, k: Kernels, worker: nat, meta: RequestMeta, start: Timespec, completion: Timespec, status: string)
    requires Inv(s) && meta.request.imgOp != IMG_RETRIEVE
    requires meta.request.imgId !in s.images || Apply(k, meta.request.imgOp, s.images[meta.request.imgId]).None?
    ensures Dispatch(s, k, worker, meta, start, completion, status) == Reject(s, meta.request)
    ensures Reject(s, meta.request).outputs == [Reply(Response(meta.request.reqId, 0, RESP_REJECTED))]
  {
  }

  /** A registered image is what a later RETRIEVE of the returned handle sends back. */
  lemma RegisterThenRetrieve(s: Store, req: Request, img: Image, receipt: Timespec, start: Timespec, completion: Timespec,
                             k: Kernels, worker: nat, later: RequestMeta, start2: Timespec, completion2: Timespec, status: string)
    requires Inv(s) && s.counter < IMAGE_SLOTS
    requires later.request.imgOp == IMG_RETRIEVE
    requires later.request.imgId == Register(s, req, Some(img), receipt, start, completion).outputs[0].resp.imgId
    ensures Dispatch(Register(s, req, Some(img), receipt, start, completion).store, k, worker, later, start2, completion2, status)
              .outputs[1] == ImagePayload(img)
  {
  }

  /**
   * The first image registered on a connection gets handle 0, the same value
   * every rejection carries in its handle field.
   */
  lemma FirstHandleIsRejectionHandle(req: Request, img: Image, receipt: Timespec, start: Timespec, completion: Timespec)
    ensures Register(Empty(), req, Some(img), receipt, start, completion).outputs[0].resp.imgId
         == Rejection(req).imgId
  {
  }

  /**
   * `image_array` as declared: IMAGE_SLOTS entries. A write to an entry at
   * or past the end has no defined effect, which `None` stands for.
   */
  function ArrayPut(slots: seq<Option<Image>>, id: nat, img: Image): (r: Option<seq<Option<Image>>>)
    requires |slots| == IMAGE_SLOTS
    ensures r.Some? <==> id < IMAGE_SLOTS
    ensures r.Some? ==> |r.value| == IMAGE_SLOTS && r.value[id] == Some(img)
  {
    if id < IMAGE_SLOTS then Some(slots[id := Some(img)]) else None
  }

  /**
   * The first transform without overwrite stores its result under handle
   * FIRST_MINTED, which is one past the last entry of the array.
   */
  lemma MintedHandleOverrunsArray(slots: seq<Option<Image>>, s: Store, img: Image)
    requires |slots| == IMAGE_SLOTS && Inv(s)
    ensures ArrayPut(slots, MintId(s.nextMinted).id, img) == None
  {
  }

  /**
   * With the table as a map, a result stored under a minted handle is what a
   * later RETRIEVE of that handle sends back.
   */
  lemma MintedHandleRetrievable(s: Store, k: Kernels, worker: nat, meta: RequestMeta, start: Timespec, completion: Timespec, status: string,
                                later: RequestMeta, start2: Timespec, completion2: Timespec, status2: string)
    requires Inv(s) && meta.request.imgId in s.images
    requires meta.request.overwrite == 0 && IsTransform(meta.request.imgOp)
    requires Apply(k, meta.request.imgOp, s.images[meta.request.imgId]).Some?
    requires later.request.imgOp == IMG_RETRIEVE
    requires later.request.imgId == Dispatch(s, k, worker, meta, start, completion, status).outputs[0].resp.imgId
    ensures later.request.imgId >= IMAGE_SLOTS
    ensures Dispatch(Dispatch(s, k, worker, meta, start, completion, status).store, k, worker, later, start2, completion2, status2)
              .outputs[1] == ImagePayload(Apply(k, meta.request.imgOp, s.images[meta.request.imgId]).value)
  {
  }
}

=== FILE: img_protocol.dfy ===
/**
 * The records the image server exchanges with its client and writes to its
 * log. common.h, which declares the wire structs, is not part of this model;
 * the operation codes and acknowledgement values follow the wire protocol's
 * declaration order.
 */
module ImgProtocol {
  import opened Timelib

  const IMG_REGISTER: nat := 0
  const IMG_RETRIEVE: nat := 1
  const IMG_ROT90CLKW: nat := 2
  const IMG_BLUR: nat := 3
  const IMG_SHARPEN: nat := 4
  const IMG_VERTEDGES: nat := 5
  const IMG_HORIZEDGES: nat := 6

  const RESP_COMPLETED: nat := 0
  const RESP_REJECTED: nat := 1

  /**
   * A decoded image. The server never looks inside one: it stores, hands to
   * a kernel, and sends back.
   */
  type Image(==)

  /** struct request: `imgOp` and `overwrite` are the raw bytes off the wire. */
  datatype Request = Request(
    reqId: nat,
    imgOp: nat,
    overwrite: nat,
    imgId: nat,
    reqTimestamp: Timespec,
    reqLength: Timespec)

  /**
   * struct request_meta as it sits in the queue: the request plus the receipt
   * and start readings. The completion reading is taken only when the reply
   * is sent, so it is passed to the dispatcher instead of stored here.
   */
  datatype RequestMeta = RequestMeta(request: Request, receipt: Timespec, start: Timespec)

  /** struct response: `imgId` is 0 on every rejection. */
  datatype Response = Response(reqId: nat, imgId: nat, ack: nat)

  /** What the server writes: to the client socket, or as a line on standard output. */
  datatype Output =
    | Reply(resp: Response)
    | ImagePayload(img: Image)
      /** `T<worker> R<id>:<sent>,<op>,<overwrite>,<img_id>,<new_img_id>,<receipt>,<start>,<completion>` */
    | Completion(
        worker: nat, reqId: nat, sent: Timespec, op: nat, overwrite: nat,
        imgId: nat, resultId: nat, receipt: Timespec, start: Timespec, completion: Timespec)
      /** `X<id>:<sent>,<length>,<receipt>` */
    | AdmissionReject(reqId: nat, sent: Timespec, length: Timespec, receipt: Timespec)
      /** `Q:[R<id>,...]` */
    | Status(line: string)

  /** The rejection reply: the request's own id, image handle 0, REJECTED. */
  function Rejection(req: Request): Response {
    Response(req.reqId, 0, RESP_REJECTED)
  }
}

=== FILE: img_queue.dfy ===
/**
 * The image server's bounded request queue: a ring of `max_size` request
 * records with separate write and read positions, a count of free slots
 * (`available`) and a count of resident requests (`number_of_items`).
 *
 * The queue's semaphores only serialise these operations; each one below is
 * the state change made while holding the queue mutex.
 */
module ImgQueue {
  import opened Timelib
  import opened ImgProtocol
  import Ring

  /** The dequeue discipline. Only FIFO is accepted at start-up. */
  datatype Policy = FIFO | SJN

  datatype Queue = Queue(
    wrPos: nat,
    rdPos: nat,
    maxSize: nat,
    available: nat,
    numberOfItems: int,
    policy: Policy,
    requests: seq<RequestMeta>)

  /** Whatever the freshly allocated slots hold; no operation ever reads it back. */
  const Unwritten: RequestMeta :=
    RequestMeta(Request(0, 0, 0, 0, Timespec(0, 0), Timespec(0, 0)), Timespec(0, 0), Timespec(0, 0))

  /** The array exists and both positions point into it. */
  predicate Indexable(q: Queue) {
    && 0 < q.maxSize
    && |q.requests| == q.maxSize
    && q.wrPos < q.maxSize
    && q.rdPos < q.maxSize
  }

  /**
   * The queue's invariant: the resident requests are the `number_of_items`
   * slots from the read position, the write position is just past them, and
   * free plus resident slots make up the whole ring.
   */
  predicate Valid(q: Queue) {
    && Indexable(q)
    && 0 <= q.numberOfItems <= q.maxSize
    && q.available + q.numberOfItems == q.maxSize
    && q.wrPos == Ring.Wrap(q.rdPos + q.numberOfItems, q.maxSize)
  }

  /** The resident requests, oldest first: the order they will be served in. */
  function Contents(q: Queue): seq<RequestMeta>
    requires Valid(q)
  {
    Ring.Window(q.requests, q.rdPos, q.numberOfItems)
  }

  function MetaReqId(m: RequestMeta): int {
    m.request.reqId
  }

  function ReqIds(s: seq<RequestMeta>): seq<int> {
    Ring.IdsOf(s, MetaReqId)
  }

  /** queue_init: both positions at 0, every slot free, nothing resident. */
  function Init(queueSize: nat, policy: Policy): (q: Queue)
    requires queueSize > 0
    ensures Valid(q)
    ensures Contents(q) == []
    ensures q.maxSize == queueSize && q.available == queueSize
  {
    Queue(0, 0, queueSize, queueSize, 0, policy, seq(queueSize, _ => Unwritten))
  }

  datatype Added = Added(queue: Queue, retval: int)

  /**
   * add_to_queue: 1 and no change when no slot is free; otherwise the
   * request goes into the slot at the write position and 0 is returned.
   */
  function Add(q: Queue, x: RequestMeta): (r: Added)
    requires Indexable(q)
    ensures Indexable(r.queue) && r.queue.maxSize == q.maxSize
    ensures r.queue.available + r.queue.numberOfItems == q.available + q.numberOfItems
    ensures r.retval == 0 || r.retval == 1
    ensures r.retval == 1 <==> q.available == 0
    ensures r.retval == 1 ==> r.queue == q
    ensures r.retval == 0 ==> r.queue.requests[q.wrPos] == x && r.queue.rdPos == q.rdPos
    ensures r.retval == 0 ==> r.queue.available == q.available - 1 && r.queue.numberOfItems == q.numberOfItems + 1
  {
    if q.available == 0 then
      Added(q, 1)
    else
      Added(q.(requests := q.requests[q.wrPos := x],
               wrPos := (q.wrPos + 1) % q.maxSize,
               available := q.available - 1,
               numberOfItems := q.numberOfItems + 1), 0)
  }

  /**
   * On a valid queue, add_to_queue refuses exactly when the queue is full,
   * and otherwise appends the request at the tail of the serving order.
   */
  lemma AddAppends(q: Queue, x: RequestMeta)
    requires Valid(q)
    ensures Valid(Add(q, x).queue)
    ensures Add(q, x).retval == 1 <==> |Contents(q)| == q.maxSize
    ensures Contents(Add(q, x).queue) == if Add(q, x).retval == 1 then Contents(q) else Contents(q) + [x]
  {
    if q.available != 0 {
      var n := q.numberOfItems as nat;
      Ring.ModOneWrap(q.rdPos + n, q.maxSize);
      Ring.ModOneWrap(q.wrPos + 1, q.maxSize);
      Ring.ModOneWrap(q.rdPos + n + 1, q.maxSize);
      Ring.WindowPush(q.requests, q.rdPos, n, x);
    }
  }

  datatype Taken = Taken(item: RequestMeta, queue: Queue)

  /**
   * get_from_queue: the slot at the read position, which then moves one
   * place on. There is no emptiness test: the caller has waited on the
   * notify semaphore, which is posted once per admitted request and once
   * per worker at shutdown.
   */
  function Get(q: Queue): (r: Taken)
    requires Indexable(q)
    ensures Indexable(r.queue) && r.queue.maxSize == q.maxSize
    ensures r.queue.available + r.queue.numberOfItems == q.available + q.numberOfItems
    ensures r.queue.wrPos == q.wrPos && r.queue.requests == q.requests
  {
    Taken(q.requests[q.rdPos],
          q.(rdPos := (q.rdPos + 1) % q.maxSize,
             available := q.available + 1,
             numberOfItems := q.numberOfItems - 1))
  }

  /** On a non-empty queue, get_from_queue returns the oldest request and removes only it. */
  lemma GetTakesOldest(q: Queue)
    requires Valid(q) && q.numberOfItems > 0
    ensures Valid(Get(q).queue)
    ensures Get(q).item == Contents(q)[0]
    ensures Contents(Get(q).queue) == Contents(q)[1..]
  {
    var n := q.numberOfItems as nat;
    Ring.WindowPop(q.requests, q.rdPos, n);
    Ring.ModOneWrap(q.rdPos + 1, q.maxSize);
    Ring.ModOneWrap(q.rdPos + n, q.maxSize);
    Ring.ModOneWrap((q.rdPos + 1) % q.maxSize + (n - 1), q.maxSize);
  }

  /**
   * The wake-up posted at shutdown reaches get_from_queue with nothing
   * queued: the counts step outside their range (one more free slot than the
   * ring has, -1 resident), although their sum is still `max_size`.
   */
  lemma GetOnEmptyOverflowsCounts(q: Queue)
    requires Valid(q) && q.numberOfItems == 0
    ensures Get(q).queue.available == q.maxSize + 1
    ensures Get(q).queue.numberOfItems == -1
    ensures !Valid(Get(q).queue)
  {
  }

  /**
   * dump_queue_status: walks `max_size - available` slots from the read
   * position. The line lists exactly the resident request ids, in serving
   * order.
   */
  method DumpQueueStatus(q: Queue) returns (line: string)
    requires Valid(q)
    ensures line == Ring.StatusLine(ReqIds(Contents(q)))
    ensures |ReqIds(Contents(q))| == q.maxSize - q.available
  {
    line := Ring.DumpWindow(q.requests, q.rdPos, q.maxSize - q.available, MetaReqId);
  }

  /** One step of a single-producer, single-consumer schedule. */
  datatype Op = Push(x: RequestMeta) | Pop

  datatype Trace = Trace(queue: Queue, served: seq<RequestMeta>, admitted: seq<RequestMeta>)

  /**
   * Runs a schedule. A push that add_to_queue refuses admits nothing; a pop
   * on an empty queue is a worker still blocked on the notify semaphore and
   * changes nothing.
   */
  function Run(q: Queue, ops: seq<Op>): (t: Trace)
    requires Valid(q)
    ensures Valid(t.queue) && t.queue.maxSize == q.maxSize
    decreases |ops|
  {
    if |ops| == 0 then Trace(q, [], [])
    else match ops[0]
      case Push(x) =>
        AddAppends(q, x);
        var r := Add(q, x);
        var rest := Run(r.queue, ops[1..]);
        Trace(rest.queue, rest.served, (if r.retval == 0 then [x] else []) + rest.admitted)
      case Pop =>
        if q.numberOfItems == 0 then Run(q, ops[1..])
        else
          GetTakesOldest(q);
          var r := Get(q);
          var rest := Run(r.queue, ops[1..]);
          Trace(rest.queue, [r.item] + rest.served, rest.admitted)
  }

  /**
   * FIFO: what the worker is handed, followed by what is still queued, is
   * what was queued at the start followed by every admitted request, in
   * admission order.
   */
  lemma {:induction false} RunIsFifo(q: Queue, ops: seq<Op>)
    requires Valid(q)
    ensures Run(q, ops).served + Contents(Run(q, ops).queue) == Contents(q) + Run(q, ops).admitted
    decreases |ops|
  {
    if |ops| > 0 {
      var t := Run(q, ops);
      match ops[0]
      case Push(x) =>
        AddAppends(q, x);
        var r := Add(q, x);
        var admittedNow := if r.retval == 0 then [x] else [];
        var rest := Run(r.queue, ops[1..]);
        assert t == Trace(rest.queue, rest.served, admittedNow + rest.admitted);
        assert Contents(r.queue) == Contents(q) + admittedNow;
        RunIsFifo(r.queue, ops[1..]);
        calc {
          t.served + Contents(t.queue);
          rest.served + Contents(rest.queue);
          Contents(r.queue) + rest.admitted;
          (Contents(q) + admittedNow) + rest.admitted;
          { Ring.AppendAssoc(Contents(q), admittedNow, rest.admitted); }
          Contents(q) + (admittedNow + rest.admitted);
          Contents(q) + t.admitted;
        }
      case Pop =>
        if q.numberOfItems == 0 {
          assert t == Run(q, ops[1..]);
          RunIsFifo(q, ops[1..]);
        } else {
          GetTakesOldest(q);
          var r := Get(q);
          var rest := Run(r.queue, ops[1..]);
          assert t == Trace(rest.queue, [r.item] + rest.served, rest.admitted);
          assert Contents(q) == [r.item] + Contents(r.queue);
          RunIsFifo(r.queue, ops[1..]);
          calc {
            t.served + Contents(t.queue);
            ([r.item] + rest.served) + Contents(rest.queue);
            { Ring.AppendAssoc([r.item], rest.served, Contents(rest.queue)); }
            [r.item] + (rest.served + Contents(rest.queue));
            [r.item] + (Contents(r.queue) + rest.admitted);
            { Ring.AppendAssoc([r.item], Contents(r.queue), rest.admitted); }
            ([r.item] + Contents(r.queue)) + rest.admitted;
            Contents(q) + t.admitted;
          }
        }
    } else {
      assert Run(q, ops) == Trace(q, [], []);
      assert [] + Contents(q) == Contents(q) + [];
    }
  }

  /** From a fresh queue, requests are served in exactly the order they were admitted. */
  lemma ServedInAdmissionOrder(queueSize: nat, policy: Policy, ops: seq<Op>)
    requires queueSize > 0
    ensures var t := Run(Init(queueSize, policy), ops);
      |t.served| <= |t.admitted| && t.served == t.admitted[..|t.served|]
  {
    var t := Run(Init(queueSize, policy), ops);
    RunIsFifo(Init(queueSize, policy), ops);
    assert t.served + Contents(t.queue) == t.admitted;
    assert t.admitted[..|t.served|] == (t.served + Contents(t.queue))[..|t.served|];
  }
}

=== FILE: img_server.dfy ===
/**
 * One connection of the image server, with the sockets and the worker
 * thread taken out: the connection loop reads a request, handles REGISTER
 * itself and queues everything else; the single worker takes the oldest
 * queued request and dispatches it against the handle table.
 *
 * Clock readings, the decoded payload of a REGISTER and the kernels are
 * parameters.
 */
module ImgServer {
  import opened Wrappers
  import opened Timelib
  import opened ImgProtocol
  import ImgQueue
  import ImageStore
  import Ring

  datatype Conn = Conn(queue: ImgQueue.Queue, store: ImageStore.Store)

  predicate Valid(c: Conn) {
    ImgQueue.Valid(c.queue) && ImageStore.Inv(c.store)
  }

  /**
   * The state handle_connection sets up: a queue of `queueSize` slots and a
   * cleared table. A size of 0 never gets here: start-up refuses it.
   */
  function Open(queueSize: nat, policy: ImgQueue.Policy): (c: Conn)
    requires queueSize > 0
    ensures Valid(c)
    ensures ImgQueue.Contents(c.queue) == [] && c.queue.maxSize == queueSize
    ensures c.store == ImageStore.Empty()
  {
    Conn(ImgQueue.Init(queueSize, policy), ImageStore.Empty())
  }

  datatype Step = Step(conn: Conn, outputs: seq<Output>)

  /**
   * One request read by the connection loop. REGISTER is answered at once
   * and never touches the queue. Any other request is queued with its
   * receipt and start readings; when the queue is full it is answered with
   * handle 0 and REJECTED and logged as an `X` line, and nothing changes.
   */
  function Arrive(c: Conn, req: Request, payload: Option<Image>, receipt: Timespec, start: Timespec, completion: Timespec): (r: Step)
    requires Valid(c)
    ensures Valid(r.conn)
    ensures req.imgOp == IMG_REGISTER ==> r.conn.queue == c.queue
    ensures req.imgOp == IMG_REGISTER ==>
      var reg := ImageStore.Register(c.store, req, payload, receipt, start, completion);
      r.conn.store == reg.store && r.outputs == reg.outputs
    ensures req.imgOp != IMG_REGISTER ==> r.conn.store == c.store
    ensures req.imgOp != IMG_REGISTER && |ImgQueue.Contents(c.queue)| < c.queue.maxSize ==>
      && ImgQueue.Contents(r.conn.queue) == ImgQueue.Contents(c.queue) + [RequestMeta(req, receipt, start)]
      && r.outputs == []
    ensures req.imgOp != IMG_REGISTER && |ImgQueue.Contents(c.queue)| == c.queue.maxSize ==>
      && r.conn == c
      && r.outputs == [Reply(Response(req.reqId, 0, RESP_REJECTED)),
                       AdmissionReject(req.reqId, req.reqTimestamp, req.reqLength, receipt)]
  {
    if req.imgOp == IMG_REGISTER then
      var reg := ImageStore.Register(c.store, req, payload, receipt, start, completion);
      Step(c.(store := reg.store), reg.outputs)
    else
      var meta := RequestMeta(req, receipt, start);
      ImgQueue.AddAppends(c.queue, meta);
      var added := ImgQueue.Add(c.queue, meta);
      if added.retval == 1 then
        Step(c, [Reply(Rejection(req)), AdmissionReject(req.reqId, req.reqTimestamp, req.reqLength, receipt)])
      else
        Step(c.(queue := added.queue), [])
  }

  /**
   * One pass of the worker loop: the oldest queued request is taken and
   * dispatched with the worker's own start and completion readings. The
   * status line lists what is still queued.
   */
  function Serve(c: Conn, k: ImageStore.Kernels, worker: nat, start: Timespec, completion: Timespec): (r: Step)
    requires Valid(c) && |ImgQueue.Contents(c.queue)| > 0
    ensures Valid(r.conn)
    ensures ImgQueue.Contents(r.conn.queue) == ImgQueue.Contents(c.queue)[1..]
    ensures r.outputs == ImageStore.Dispatch(c.store, k, worker, ImgQueue.Contents(c.queue)[0], start, completion,
                                             Ring.StatusLine(ImgQueue.ReqIds(ImgQueue.Contents(c.queue)[1..]))).outputs
    ensures r.conn.store == ImageStore.Dispatch(c.store, k, worker, ImgQueue.Contents(c.queue)[0], start, completion,
                                                Ring.StatusLine(ImgQueue.ReqIds(ImgQueue.Contents(c.queue)[1..]))).store
  {
    ImgQueue.GetTakesOldest(c.queue);
    var taken := ImgQueue.Get(c.queue);
    var status := Ring.StatusLine(ImgQueue.ReqIds(ImgQueue.Contents(taken.queue)));
    var done := ImageStore.Dispatch(c.store, k, worker, taken.item, start, completion, status);
    Step(Conn(taken.queue, done.store), done.outputs)
  }

  /**
   * A transform queued on a full queue never reaches the table: its only
   * effect is the rejection and the `X` line.
   */
  lemma FullQueueRejectsBeforeDispatch(c: Conn, req: Request, payload: Option<Image>, receipt: Timespec, start: Timespec, completion: Timespec)
    requires Valid(c) && req.imgOp != IMG_REGISTER
    requires c.queue.available == 0
    ensures Arrive(c, req, payload, receipt, start, completion).conn == c
    ensures Arrive(c, req, payload, receipt, start, completion).outputs[0] == Reply(Rejection(req))
  {
    assert |ImgQueue.Contents(c.queue)| == c.queue.maxSize;
  }

  /**
   * A request queued on an empty queue is the next one the worker serves:
   * a RETRIEVE of a registered image sends that image back.
   */
  lemma QueuedRetrieveIsServed(c: Conn, req: Request, receipt: Timespec, start: Timespec,
                               k: ImageStore.Kernels, worker: nat, start2: Timespec, completion2: Timespec)
    requires Valid(c) && ImgQueue.Contents(c.queue) == []
    requires req.imgOp == IMG_RETRIEVE && req.imgId in c.store.images
    ensures var a := Arrive(c, req, None, receipt, start, start);
      && |ImgQueue.Contents(a.conn.queue)| == 1
      && Serve(a.conn, k, worker, start2, completion2).outputs[1] == ImagePayload(c.store.images[req.imgId])
  {
    var a := Arrive(c, req, None, receipt, start, start);
    assert ImgQueue.Contents(a.conn.queue) == [RequestMeta(req, receipt, start)];
  }
}

=== FILE: lim_queue.dfy ===
/**
 * The request queue of the server with a configurable queue limit: a ring of
 * `capacity` server requests with `front`, `rear` and `count`, and the branch
 * of the connection loop that turns a refused enqueue into a negative
 * acknowledgement.
 *
 * The capacity is the `-q` argument; when the option is absent it stays 0,
 * and such a queue refuses every request.
 */
module LimQueue {
  import opened Timelib
  import Ring

  /** struct request of the queueing servers. */
  datatype Request = Request(reqId: int, reqTimestamp: Timespec, reqLength: Timespec)

  /** struct server_request: a request and the time it was read off the socket. */
  datatype ServerRequest = ServerRequest(req: Request, receipt: Timespec)

  /** struct response: `ack` is 0 for a completed request, 1 for a rejected one. */
  datatype Response = Response(reqId: int, ack: int)

  /** What the server writes: to the client socket, to standard output or to standard error. */
  datatype Output =
    | Reply(resp: Response)
      /** `X<id>:<sent>,<length>,<rejected at>` */
    | RejectLog(reqId: int, sent: Timespec, length: Timespec, rejected: Timespec)
      /** `Q:[R<id>,...]` */
    | Status(line: string)
    | Stderr(text: string)

  datatype Queue = Queue(items: seq<ServerRequest>, front: nat, rear: nat, count: nat, capacity: nat)

  /** The request id handed out by get_from_queue when there is nothing to hand out. */
  const SENTINEL_ID: int := -1

  /** The value returned for an empty queue: only its id is set in the source. */
  const Sentinel: ServerRequest :=
    ServerRequest(Request(SENTINEL_ID, Timespec(0, 0), Timespec(0, 0)), Timespec(0, 0))

  /** Whatever the freshly allocated slots hold; no operation ever reads it back. */
  const Unwritten: ServerRequest := ServerRequest(Request(0, Timespec(0, 0), Timespec(0, 0)), Timespec(0, 0))

  /**
   * The queue's invariant: `count` requests sit from `front` onward, `rear`
   * is the slot just past them, and there are never more than `capacity`.
   */
  predicate Valid(q: Queue) {
    && |q.items| == q.capacity
    && q.count <= q.capacity
    && (q.capacity == 0 ==> q.front == 0 && q.rear == 0)
    && (q.capacity > 0 ==>
          q.front < q.capacity && q.rear == Ring.Wrap(q.front + q.count, q.capacity))
  }

  /** The resident requests, oldest first: the order they will be served in. */
  function Contents(q: Queue): seq<ServerRequest>
    requires Valid(q)
  {
    Ring.Window(q.items, q.front, q.count)
  }

  function RequestId(s: ServerRequest): int {
    s.req.reqId
  }

  function ReqIds(s: seq<ServerRequest>): seq<int> {
    Ring.IdsOf(s, RequestId)
  }

  /** queue_init: an empty queue of `queue_size` slots. */
  function Init(queueSize: nat): (q: Queue)
    ensures Valid(q)
    ensures Contents(q) == []
    ensures q.capacity == queueSize
    ensures q.front == 0 && q.rear == 0 && q.count == 0
  {
    Queue(seq(queueSize, _ => Unwritten), 0, 0, 0, queueSize)
  }

  datatype Added = Added(queue: Queue, retval: int)

  /**
   * add_to_queue: -1 and no change when `count == capacity`; otherwise the
   * request is stored at `rear`, becomes the last in serving order, and 0 is
   * returned.
   */
  function Add(q: Queue, x: ServerRequest): (r: Added)
    requires Valid(q)
    ensures Valid(r.queue) && r.queue.capacity == q.capacity
    ensures r.retval == -1 <==> |Contents(q)| == q.capacity
    ensures r.retval == -1 ==> r.queue == q
    ensures r.retval == 0 ==> Contents(r.queue) == Contents(q) + [x]
    ensures r.retval == -1 || r.retval == 0
  {
    if q.count == q.capacity then
      Added(q, -1)
    else
      Ring.ModOneWrap(q.front + q.count, q.capacity);
      Ring.ModOneWrap(q.rear + 1, q.capacity);
      Ring.ModOneWrap(q.front + q.count + 1, q.capacity);
      Ring.WindowPush(q.items, q.front, q.count, x);
      Added(q.(items := q.items[q.rear := x],
               rear := (q.rear + 1) % q.capacity,
               count := q.count + 1), 0)
  }

  datatype Got = Got(item: ServerRequest, queue: Queue)

  /**
   * get_from_queue: on an empty queue, a request whose id is -1 and no
   * change; otherwise the request at `front`, which is the oldest, and the
   * queue without it.
   */
  function Get(q: Queue): (r: Got)
    requires Valid(q)
    ensures Valid(r.queue) && r.queue.capacity == q.capacity
    ensures q.count == 0 ==> r.item.req.reqId == SENTINEL_ID && r.queue == q
    ensures q.count > 0 ==> r.item == Contents(q)[0] && Contents(r.queue) == Contents(q)[1..]
  {
    if q.count == 0 then
      Got(Sentinel, q)
    else
      Ring.WindowPop(q.items, q.front, q.count);
      Ring.ModOneWrap(q.front + 1, q.capacity);
      Ring.ModOneWrap(q.front + q.count, q.capacity);
      Ring.ModOneWrap((q.front + 1) % q.capacity + (q.count - 1), q.capacity);
      Got(q.items[q.front], q.(front := (q.front + 1) % q.capacity, count := q.count - 1))
  }

  /**
   * dump_queue_status: the `count` ids from `front`, in serving order,
   * comma-separated.
   */
  method DumpQueueStatus(q: Queue) returns (line: string)
    requires Valid(q)
    ensures line == Ring.StatusLine(ReqIds(Contents(q)))
    ensures |ReqIds(Contents(q))| == q.count
  {
    line := Ring.DumpWindow(q.items, q.front, q.count, RequestId);
  }

  datatype Received = Received(queue: Queue, outputs: seq<Output>)

  /**
   * One request read by the connection loop of the limited-queue server.
   * Admitted requests produce nothing yet; a refused one is answered at once
   * with its own id and ack 1, logged as an `X` line stamped `rejected`
   * (a clock reading taken after the refusal), and followed by a queue dump.
   */
  function Receive(q: Queue, req: Request, receipt: Timespec, rejected: Timespec): (r: Received)
    requires Valid(q)
    ensures Valid(r.queue)
    ensures |Contents(q)| < q.capacity ==>
      Contents(r.queue) == Contents(q) + [ServerRequest(req, receipt)] && r.outputs == []
    ensures |Contents(q)| == q.capacity ==>
      && r.queue == q
      && r.outputs == [Reply(Response(req.reqId, 1)),
                       RejectLog(req.reqId, req.reqTimestamp, req.reqLength, rejected),
                       Status(Ring.StatusLine(ReqIds(Contents(q))))]
  {
    var added := Add(q, ServerRequest(req, receipt));
    if added.retval == -1 then
      Received(q, [Reply(Response(req.reqId, 1)),
                   RejectLog(req.reqId, req.reqTimestamp, req.reqLength, rejected),
                   Status(Ring.StatusLine(ReqIds(Contents(q))))])
    else
      Received(added.queue, [])
  }

  /** One step of the reader/worker schedule. */
  datatype Op = Push(x: ServerRequest) | Pop

  datatype Trace = Trace(queue: Queue, served: seq<ServerRequest>, admitted: seq<ServerRequest>)

  /**
   * Runs a schedule. A refused push admits nothing; a pop on an empty queue
   * returns the sentinel, which the worker does not process.
   */
  function Run(q: Queue, ops: seq<Op>): (t: Trace)
    requires Valid(q)
    ensures Valid(t.queue) && t.queue.capacity == q.capacity
    decreases |ops|
  {
    if |ops| == 0 then Trace(q, [], [])
    else match ops[0]
      case Push(x) =>
        var r := Add(q, x);
        var rest := Run(r.queue, ops[1..]);
        Trace(rest.queue, rest.served, (if r.retval == 0 then [x] else []) + rest.admitted)
      case Pop =>
        var r := Get(q);
        var rest := Run(r.queue, ops[1..]);
        Trace(rest.queue, (if q.count == 0 then [] else [r.item]) + rest.served, rest.admitted)
  }

  /**
   * FIFO: what the worker is handed, followed by what is still queued, is
   * what was queued at the start followed by every admitted request.
   */
  lemma {:induction false} RunIsFifo(q: Queue, ops: seq<Op>)
    requires Valid(q)
    ensures Run(q, ops).served + Contents(Run(q, ops).queue) == Contents(q) + Run(q, ops).admitted
    decreases |ops|
  {
    if |ops| == 0 {
      assert Run(q, ops) == Trace(q, [], []);
      assert [] + Contents(q) == Contents(q) + [];
    } else {
      var t := Run(q, ops);
      match ops[0]
      case Push(x) =>
        var r := Add(q, x);
        var admittedNow := if r.retval == 0 then [x] else [];
        var rest := Run(r.queue, ops[1..]);
        assert t == Trace(rest.queue, rest.served, admittedNow + rest.admitted);
        assert Contents(r.queue) == Contents(q) + admittedNow;
        RunIsFifo(r.queue, ops[1..]);
        calc {
          t.served + Contents(t.queue);
          rest.served + Contents(rest.queue);
          Contents(r.queue) + rest.admitted;
          (Contents(q) + admittedNow) + rest.admitted;
          { Ring.AppendAssoc(Contents(q), admittedNow, rest.admitted); }
          Contents(q) + (admittedNow + rest.admitted);
          Contents(q) + t.admitted;
        }
      case Pop =>
        var r := Get(q);
        var servedNow := if q.count == 0 then [] else [r.item];
        var rest := Run(r.queue, ops[1..]);
        assert t == Trace(rest.queue, servedNow + rest.served, rest.admitted);
        assert Contents(q) == servedNow + Contents(r.queue);
        RunIsFifo(r.queue, ops[1..]);
        calc {
          t.served + Contents(t.queue);
          (servedNow + rest.served) + Contents(rest.queue);
          { Ring.AppendAssoc(servedNow, rest.served, Contents(rest.queue)); }
          servedNow + (rest.served + Contents(rest.queue));
          servedNow + (Contents(r.queue) + rest.admitted);
          { Ring.AppendAssoc(servedNow, Contents(r.queue), rest.admitted); }
          (servedNow + Contents(r.queue)) + rest.admitted;
          Contents(q) + t.admitted;
        }
    }
  }

  /** From a fresh queue, requests are served in exactly the order they were admitted. */
  lemma ServedInAdmissionOrder(queueSize: nat, ops: seq<Op>)
    ensures var t := Run(Init(queueSize), ops);
      |t.served| <= |t.admitted| && t.served == t.admitted[..|t.served|]
  {
    var t := Run(Init(queueSize), ops);
    RunIsFifo(Init(queueSize), ops);
    assert t.served + Contents(t.queue) == t.admitted;
    assert t.admitted[..|t.served|] == (t.served + Contents(t.queue))[..|t.served|];
  }

  /** Without a `-q` option the queue has no slot, and every request is refused. */
  lemma ZeroCapacityRefusesAll(req: Request, receipt: Timespec, rejected: Timespec)
    ensures Receive(Init(0), req, receipt, rejected).outputs[0] == Reply(Response(req.reqId, 1))
  {
  }
}

=== FILE: reverse.dfy ===
/**
 * The string-reversal program: given exactly one argument, print its
 * characters last to first and then a newline.
 *
 * A command-line argument is a C string, so it holds no NUL and `strlen` is
 * its length; characters are the bytes `%c` prints one at a time.
 */
module Reverse {

  /** The reference definition: the last character first. */
  function Reversed(s: string): (r: string)
    ensures |r| == |s|
    ensures forall i :: 0 <= i < |s| ==> r[i] == s[|s| - 1 - i]
  {
    if |s| == 0 then "" else [s[|s| - 1]] + Reversed(s[..|s| - 1])
  }

  /** Reversing twice gives the original string back. */
  lemma ReversedTwice(s: string)
    ensures Reversed(Reversed(s)) == s
  {
    var r := Reversed(Reversed(s));
    assert forall i :: 0 <= i < |s| ==> r[i] == s[i];
  }

  /** The usage line printed on a wrong argument count. */
  function UsageMessage(prog: string): string {
    "Usage: " + prog + " <string>\n"
  }

  /**
   * main: with an argument count other than two the usage line goes to
   * standard output and the exit status is 1; otherwise the argument is
   * printed back to front, one character per step from index `len - 1`
   * down to 0, then a newline, and the exit status is 0.
   */
  method Run(prog: string, args: seq<string>) returns (exitCode: int, out: string)
    ensures |args| != 1 ==> exitCode == 1 && out == UsageMessage(prog)
    ensures |args| == 1 ==> exitCode == 0 && out == Reversed(args[0]) + "\n"
  {
    if |args| != 1 {
      return 1, UsageMessage(prog);
    }
    var input := args[0];
    var len := |input|;
    out := "";
    var i := len - 1;
    while i >= 0
      invariant -1 <= i < len
      invariant |out| == len - 1 - i
      invariant forall k :: 0 <= k < |out| ==> out[k] == input[len - 1 - k]
    {
      out := out + [input[i]];
      i := i - 1;
    }
    assert out == Reversed(input);
    out := out + "\n";
    exitCode := 0;
  }

  /**
   * The output of a successful run is exactly as long as the argument, plus
   * the newline; an empty argument prints the newline alone.
   */
  lemma OutputLength(arg: string)
    ensures |Reversed(arg) + "\n"| == |arg| + 1
    ensures (Reversed(arg) + "\n")[|arg|] == '\n'
    ensures arg == "" ==> Reversed(arg) + "\n" == "\n"
  {
  }
}

=== FILE: ring.dfy ===
/**
 * What the three request queues share: a fixed-length array used as a
 * circle, the run of `n` slots that starts at the read index (the resident
 * requests, oldest first), and the `Q:[R<id>,R<id>,...]` status line that
 * lists them in serving order.
 */
module Ring {
  import Format

  /** `i % len` for an `i` below `2 * len`: at most one wrap. */
  lemma ModOneWrap(i: nat, len: nat)
    requires 0 < len && i < 2 * len
    ensures i % len == if i < len then i else i - len
  {
    if i >= len {
      assert i == 1 * len + (i - len);
    }
  }

  /** The `n` slots of `buf` read from `start` onward, wrapping at the end. */
  function Window<T>(buf: seq<T>, start: nat, n: nat): (w: seq<T>)
    requires n <= |buf|
    requires n > 0 ==> start < |buf|
    ensures |w| == n
  {
    seq(n, i requires 0 <= i < n => buf[(start + i) % |buf|])
  }

  /**
   * Writing `x` into the first free slot, the one `n` places after `start`,
   * extends the window by `x` at its end and leaves the rest as it was.
   */
  lemma WindowPush<T>(buf: seq<T>, start: nat, n: nat, x: T)
    requires n < |buf| && start < |buf|
    ensures Window(buf[(start + n) % |buf| := x], start, n + 1) == Window(buf, start, n) + [x]
  {
    var len := |buf|;
    var slot := (start + n) % len;
    var after := Window(buf[slot := x], start, n + 1);
    var before := Window(buf, start, n);
    forall i | 0 <= i < n + 1
      ensures after[i] == (before + [x])[i]
    {
      ModOneWrap(start + i, len);
      ModOneWrap(start + n, len);
    }
  }

  /**
   * The slot at `start` is the head of the window, and moving `start` one
   * place on (modulo the length) drops exactly that head.
   */
  lemma WindowPop<T>(buf: seq<T>, start: nat, n: nat)
    requires 0 < n <= |buf| && start < |buf|
    ensures Window(buf, start, n)[0] == buf[start]
    ensures Window(buf, (start + 1) % |buf|, n - 1) == Window(buf, start, n)[1..]
  {
    var len := |buf|;
    var next := (start + 1) % len;
    ModOneWrap(start + 1, len);
    ModOneWrap(start, len);
    var after := Window(buf, next, n - 1);
    var before := Window(buf, start, n);
    forall i | 0 <= i < n - 1
      ensures after[i] == before[1..][i]
    {
      ModOneWrap(next + i, len);
      ModOneWrap(start + 1 + i, len);
    }
  }

  /** Regrouping a concatenation, for the queue trace proofs. */
  lemma AppendAssoc<T>(a: seq<T>, b: seq<T>, c: seq<T>)
    ensures (a + b) + c == a + (b + c)
  {
  }

  /** The request ids of the queued items, in queue order. */
  function IdsOf<T>(items: seq<T>, id: T -> int): (ids: seq<int>)
    ensures |ids| == |items|
  {
    seq(|items|, i requires 0 <= i < |items| => id(items[i]))
  }

  /** One `R<id>` entry of a status line. */
  function Label(id: int): string {
    "R" + Format.IntToString(id)
  }

  function Labels(ids: seq<int>): (labels: seq<string>)
    ensures |labels| == |ids|
  {
    seq(|ids|, i requires 0 <= i < |ids| => Label(ids[i]))
  }

  /** `Q:[R<id>,R<id>,...]` and a newline: the entries in the order given. */
  function StatusLine(ids: seq<int>): string {
    "Q:[" + Format.Join(Labels(ids)) + "]\n"
  }

  function CountChar(c: char, s: string): nat {
    if |s| == 0 then 0 else CountChar(c, s[..|s| - 1]) + (if s[|s| - 1] == c then 1 else 0)
  }

  lemma CountCharAppend(c: char, s: string, t: string)
    ensures CountChar(c, s + t) == CountChar(c, s) + CountChar(c, t)
    decreases |t|
  {
    if |t| > 0 {
      assert (s + t)[..|s + t| - 1] == s + t[..|t| - 1];
      CountCharAppend(c, s, t[..|t| - 1]);
    } else {
      assert s + t == s;
    }
  }

  lemma NoDigitIsComma(s: string)
    requires forall i :: 0 <= i < |s| ==> Format.IsDigit(s[i])
    ensures CountChar(',', s) == 0
    decreases |s|
  {
    if |s| > 0 {
      NoDigitIsComma(s[..|s| - 1]);
    }
  }

  lemma LabelHasNoComma(id: int)
    ensures CountChar(',', Label(id)) == 0
  {
    var digits := Format.NatToString(if id < 0 then -id else id);
    NoDigitIsComma(digits);
    if id < 0 {
      assert Label(id) == "R" + ("-" + digits);
      CountCharAppend(',', "-", digits);
      CountCharAppend(',', "R", "-" + digits);
    } else {
      CountCharAppend(',', "R", digits);
    }
  }

  lemma {:induction false} JoinCommas(ids: seq<int>)
    ensures CountChar(',', Format.Join(Labels(ids))) == if |ids| == 0 then 0 else |ids| - 1
    decreases |ids|
  {
    if |ids| == 1 {
      LabelHasNoComma(ids[0]);
    } else if |ids| > 1 {
      var front := ids[..|ids| - 1];
      assert Labels(ids)[..|ids| - 1] == Labels(front);
      JoinCommas(front);
      LabelHasNoComma(ids[|ids| - 1]);
      CountCharAppend(',', Format.Join(Labels(front)) + ",", Label(ids[|ids| - 1]));
      CountCharAppend(',', Format.Join(Labels(front)), ",");
    }
  }

  /** A status line of `n` entries carries exactly `n - 1` commas: none trailing. */
  lemma StatusLineCommas(ids: seq<int>)
    ensures CountChar(',', StatusLine(ids)) == if |ids| == 0 then 0 else |ids| - 1
  {
    JoinCommas(ids);
    CountCharAppend(',', "Q:[" + Format.Join(Labels(ids)), "]\n");
    CountCharAppend(',', "Q:[", Format.Join(Labels(ids)));
  }

  /** The text a dump has produced after `j` of its `n` entries. */
  function DumpPrefix(labels: seq<string>, j: nat): string
    requires j <= |labels|
  {
    "Q:[" + Format.Join(labels[..j]) + (if 0 < j < |labels| then "," else "")
  }

  /** Printing entry `j`, then a comma unless it is the last, extends the prefix. */
  lemma DumpStep(labels: seq<string>, j: nat)
    requires j < |labels|
    ensures DumpPrefix(labels, j) + labels[j] + (if j + 1 != |labels| then "," else "")
         == DumpPrefix(labels, j + 1)
  {
    assert labels[..j + 1] == labels[..j] + [labels[j]];
    if j > 0 {
      Format.JoinSnoc(labels[..j], labels[j]);
    } else {
      assert labels[..1] == [labels[0]];
    }
  }

  /** The dump after its last entry, closed by `]` and a newline, is the status line. */
  lemma DumpDone(labels: seq<string>)
    ensures DumpPrefix(labels, |labels|) + "]\n" == "Q:[" + Format.Join(labels) + "]\n"
  {
    assert labels[..|labels|] == labels;
  }

  /** The slot `k` places into a circle of `len` slots, for `k` below two laps. */
  function Wrap(k: nat, len: nat): nat {
    if k < len then k else k - len
  }

  /** Entry `j` of the status line names the item `j` slots after `start`. */
  lemma LabelAt<T>(buf: seq<T>, start: nat, n: nat, id: T -> int, j: nat)
    requires n <= |buf| && start < |buf| && j < n
    ensures Wrap(start + j, |buf|) < |buf|
    ensures Labels(IdsOf(Window(buf, start, n), id))[j] == Label(id(buf[Wrap(start + j, |buf|)]))
  {
    ModOneWrap(start + j, |buf|);
  }

  /** Stepping an index modulo `len` moves it one slot further round the circle. */
  lemma StepIndex(start: nat, j: nat, i: nat, len: nat)
    requires start < len && j < len && i == Wrap(start + j, len)
    ensures (i + 1) % len == Wrap(start + j + 1, len)
  {
    ModOneWrap(i + 1, len);
  }

  /**
   * The status dump loop: walk `n` slots from `start`, stepping the index
   * modulo the array length, printing `R<id>` for each and a comma after
   * every entry but the last.
   */
  method DumpWindow<T>(buf: seq<T>, start: nat, n: nat, id: T -> int) returns (out: string)
    requires n <= |buf|
    requires n > 0 ==> start < |buf|
    ensures out == StatusLine(IdsOf(Window(buf, start, n), id))
  {
    ghost var labels := Labels(IdsOf(Window(buf, start, n), id));
    out := "Q:[";
    var i: nat := start;
    var j := 0;
    assert labels[..0] == [];
    while j < n
      invariant 0 <= j <= n
      invariant n > 0 ==> i == Wrap(start + j, |buf|)
      invariant out == DumpPrefix(labels, j)
    {
      var entry := Label(id(buf[i]));
      LabelAt(buf, start, n, id, j);
      DumpStep(labels, j);
      out := out + entry + (if j + 1 != n then "," else "");
      StepIndex(start, j, i, |buf|);
      i := (i + 1) % |buf|;
      j := j + 1;
    }
    DumpDone(labels);
    out := out + "]\n";
  }
}

=== FILE: timelib.dfy ===
/**
 * The `struct timespec` helpers of the timing library: comparison, in-place
 * addition, and the borrow step that turns two clock readings into an
 * elapsed time inside the busy-wait loop.
 *
 * `tv_sec` and `tv_nsec` are 64-bit `long`s in the source; here they are
 * unbounded, so the model says nothing about overflow near 2^63.
 */
module Timelib {

  /** Nanoseconds per second (NANO_IN_SEC of timelib.h). */
  const NANO_IN_SEC: int := 1000000000

  datatype Timespec = Timespec(sec: int, nsec: int)

  /** The instant a timespec denotes, counted in nanoseconds. */
  function TotalNanos(t: Timespec): int {
    t.sec * NANO_IN_SEC + t.nsec
  }

  /** The canonical form: the nanosecond field is a proper fraction of a second. */
  predicate Normalised(t: Timespec) {
    0 <= t.nsec < NANO_IN_SEC
  }

  function Sign(x: int): int {
    if x > 0 then 1 else if x < 0 then -1 else 0
  }

  /**
   * timespec_cmp: 1 when `a` is later than `b`, -1 when earlier, 0 when both
   * fields agree. Seconds are compared first, nanoseconds break ties.
   */
  function Cmp(a: Timespec, b: Timespec): (r: int)
    ensures r == 0 <==> a == b
    ensures r == 1 <==> a.sec > b.sec || (a.sec == b.sec && a.nsec > b.nsec)
    ensures r == -1 <==> a.sec < b.sec || (a.sec == b.sec && a.nsec < b.nsec)
  {
    if a.sec == b.sec && a.nsec == b.nsec then 0
    else if a.sec > b.sec || (a.sec == b.sec && a.nsec > b.nsec) then 1
    else -1
  }

  /** Swapping the arguments negates the answer. */
  lemma CmpAntisymmetric(a: Timespec, b: Timespec)
    ensures Cmp(a, b) == -Cmp(b, a)
  {
  }

  /**
   * On normalised values the field-wise comparison agrees with comparing the
   * instants the values denote.
   */
  lemma CmpMatchesInstants(a: Timespec, b: Timespec)
    requires Normalised(a) && Normalised(b)
    ensures Cmp(a, b) == Sign(TotalNanos(a) - TotalNanos(b))
  {
    if a.sec > b.sec {
      assert TotalNanos(a) >= (b.sec + 1) * NANO_IN_SEC;
    } else if a.sec < b.sec {
      assert TotalNanos(b) >= (a.sec + 1) * NANO_IN_SEC;
    }
  }

  /**
   * timespec_add(a, b): the new value of `*a` (`*b` is only read). The
   * carry is taken only when the nanosecond sum is strictly above
   * NANO_IN_SEC; in that branch the sum is positive, so C's truncating `/`
   * and `%` agree with Dafny's.
   */
  function Add(a: Timespec, b: Timespec): (r: Timespec)
    ensures Normalised(a) && Normalised(b) ==> 0 <= r.nsec <= NANO_IN_SEC
  {
    var nsec := a.nsec + b.nsec;
    if nsec > NANO_IN_SEC then
      Timespec(a.sec + b.sec + nsec / NANO_IN_SEC, nsec % NANO_IN_SEC)
    else
      Timespec(a.sec + b.sec, nsec)
  }

  /** Adding keeps the instant: the sum denotes the two durations added. */
  lemma AddPreservesTotal(a: Timespec, b: Timespec)
    ensures TotalNanos(Add(a, b)) == TotalNanos(a) + TotalNanos(b)
  {
    var nsec := a.nsec + b.nsec;
    if nsec > NANO_IN_SEC {
      assert nsec == nsec / NANO_IN_SEC * NANO_IN_SEC + nsec % NANO_IN_SEC;
    }
  }

  /**
   * Two half seconds add up to a value whose nanosecond field is a full
   * second; timespec_cmp then ranks it before the one-second value that
   * denotes the same instant.
   */
  lemma AddLeavesFullSecond(half: Timespec)
    requires half == Timespec(0, 500000000)
    ensures Normalised(half)
    ensures Add(half, half) == Timespec(0, NANO_IN_SEC)
    ensures !Normalised(Add(half, half))
    ensures TotalNanos(Add(half, half)) == TotalNanos(Timespec(1, 0))
    ensures Cmp(Add(half, half), Timespec(1, 0)) == -1
  {
    var r := Add(half, half);
    assert !(half.nsec + half.nsec > NANO_IN_SEC);
    assert r == Timespec(half.sec + half.sec, half.nsec + half.nsec);
    FullSecondField(r);
  }

  /** A nanosecond field of a full second denotes the next whole second but ranks before it. */
  lemma FullSecondField(r: Timespec)
    requires r == Timespec(0, NANO_IN_SEC)
    ensures TotalNanos(r) == TotalNanos(Timespec(1, 0))
    ensures Cmp(r, Timespec(1, 0)) == -1
  {
    assert TotalNanos(r) == 0 * NANO_IN_SEC + NANO_IN_SEC;
    assert TotalNanos(Timespec(1, 0)) == 1 * NANO_IN_SEC + 0;
  }

  /** timespec_add with the carry taken at `>=`, which keeps results normalised. */
  function AddNormalised(a: Timespec, b: Timespec): (r: Timespec)
    ensures Normalised(a) && Normalised(b) ==> Normalised(r)
  {
    var nsec := a.nsec + b.nsec;
    if nsec >= NANO_IN_SEC then
      Timespec(a.sec + b.sec + nsec / NANO_IN_SEC, nsec % NANO_IN_SEC)
    else
      Timespec(a.sec + b.sec, nsec)
  }

  /** The corrected addition keeps the instant as well. */
  lemma AddNormalisedPreservesTotal(a: Timespec, b: Timespec)
    ensures TotalNanos(AddNormalised(a, b)) == TotalNanos(a) + TotalNanos(b)
  {
    var nsec := a.nsec + b.nsec;
    if nsec >= NANO_IN_SEC {
      assert nsec == nsec / NANO_IN_SEC * NANO_IN_SEC + nsec % NANO_IN_SEC;
    }
  }

  /**
   * The elapsed time computed in get_elapsed_busywait: field-wise difference,
   * then one borrow from the seconds when the nanoseconds went negative.
   */
  function Elapsed(current: Timespec, begin: Timespec): (r: Timespec)
    ensures TotalNanos(r) == TotalNanos(current) - TotalNanos(begin)
    ensures Normalised(current) && Normalised(begin) ==> Normalised(r)
  {
    var sec := current.sec - begin.sec;
    var nsec := current.nsec - begin.nsec;
    if nsec < 0 then Timespec(sec - 1, nsec + NANO_IN_SEC) else Timespec(sec, nsec)
  }

  /**
   * The busy-wait loop stops (`timespec_cmp(&elapsed, &wait) >= 0`) exactly
   * when at least the requested time has passed between the two readings.
   */
  lemma BusyWaitStopsAfterWaitTime(current: Timespec, begin: Timespec, wait: Timespec)
    requires Normalised(current) && Normalised(begin) && Normalised(wait)
    ensures Cmp(Elapsed(current, begin), wait) >= 0
        <==> TotalNanos(current) - TotalNanos(begin) >= TotalNanos(wait)
  {
    CmpMatchesInstants(Elapsed(current, begin), wait);
  }
}

=== FILE: wrappers.dfy ===
/** Optional values, used wherever the C code returns NULL or a status flag. */
module Wrappers {

  datatype Option<+T> = None | Some(value: T)
}
